=== FILE: README.md ===
# grubby-rs boot-entry manager: a Dafny model of its decision logic

grubby-rs is a command-line tool that manages Boot Loader Specification
(BLS) entries: it adds an entry for a new kernel, prints entries, removes
entries and edits their kernel command lines. It selects entries by a
selector string (`ALL`, `DEFAULT`, a decimal index, a kernel path or
`TITLE=<title>`). Kernel paths are stored relative to `/boot` when `/boot`
is a separate mount.

This project models the pure logic of `src/lib.rs`:

- the selector match rule and the selection of `get_bls_list`;
- the default index and `get_default_entry`;
- the mount-table scan of `get_prefix`;
- the splitting of `root=` out of the options (`separate_root_param`);
- the field computation of `handle_add_kernel` and `add_bls_entry`: version,
  options, initrd, prefix stripping, initrd list and entry identifier;
- the lines printed by `print_bls_entries`;
- the ordering of the side effects of `remove_bls_entries`;
- the calls of `update_bls_entries`;
- the dispatch order of `run`.

What the program reads from the system is an input (`Bls.System`):

- the contents of the machine identity file;
- the lines of the mount table;
- the entries in enumeration order;
- the set of entries whose deletion fails.

What the program writes is an output value:

- the new entry's fields;
- the printed lines;
- the trace of removal events;
- the sequence of command-line edit calls.

Every `process::exit(1)` path and every panic that the model represents is
a `Bls.Error` value. `Error.IsPanic` tells the two kinds
apart. The panic on a key the record store reports with no values is
represented for `initrd` only (see "## Left out").

Modules, in dependency order:

- `Results`: `Option` and `Result`.
- `Text`: Rust's `split`, `find`, `trim` and `to_string` on strings.
- `Bls`: the data model.
- `RootParam`, `MountPrefix`, `Selection`, `AddKernel`, `Info`, `Remove`,
  `Update`: one module per part of `lib.rs`.
- `Grubby`: `run`.

Three behaviours of the program that the model keeps as they are:

- The kernel version is the text after the **first** `vmlinuz-` in the
  path (`str::find`).
- Stripping `/boot` from `/boot/vmlinuz-5.10.0` leaves `/vmlinuz-5.10.0`,
  with its leading slash.
- With `/boot` mounted, a non-empty `--extra-initrd` in which text follows
  the first `/boot` replaces the stripped initrd in the first slot. It is then stored again, unstripped, as the
  second initrd (`AddKernel.ExtraInitrdOverwrites`).

## Model

| member | source | states |
|---|---|---|
| Text.Split | src/lib.rs:186 | splitting on one character yields at least one piece and no piece contains the separator |
| Text.JoinSplit | src/lib.rs:186 | joining the pieces of a split with the separator gives back the original string |
| Text.SplitJoin | src/lib.rs:329-337 | splitting the join of separator-free pieces gives back exactly those pieces |
| Text.SplitAppend | src/lib.rs:99 | splitting `x`, a separator and `y` gives the pieces of `x` followed by the pieces of `y` |
| Text.Find | src/lib.rs:105 | the result is the first position where the pattern occurs, and absent exactly when it occurs nowhere |
| Text.NatToString | src/lib.rs:250 | the decimal rendering of an index is non-empty, all digits, without a leading zero, and reads back as the index |
| Text.NatToStringInjective | src/lib.rs:250 | two indices with the same decimal rendering are equal, so a decimal selector names at most one index |
| Text.Trim | src/lib.rs:19 | the trimmed text is a contiguous slice of the input with no whitespace at either end |
| Text.TrimNewline | src/lib.rs:15-20 | the machine identity followed by a newline trims back to the identity |
| RootParam.SeparateRootParam | src/lib.rs:182-197 | the loop that appends each non-root token and a space, then pops the last space, yields the non-root tokens joined by spaces and the value of the last `root=` token |
| RootParam.SeparatedRoot | src/lib.rs:182-197 | the root `SeparateRoot` returns is the value of the last `root=` token, and empty when there is none |
| RootParam.AccumulatedIsJoin | src/lib.rs:186-194 | the accumulated text is the join of the non-root tokens plus one trailing space, or empty when there is none |
| RootParam.NoRootRoundTrip | src/lib.rs:182-197 | options without a `root=` token come back unchanged as the arguments, with an empty root |
| RootParam.ArgsAreNonRootTokens | src/lib.rs:182-197 | the arguments split back into exactly the non-root tokens, in their original order |
| RootParam.LastRootWins | src/lib.rs:187-188 | when several `root=` tokens occur, the last one determines the root |
| RootParam.LastRootAbsent | src/lib.rs:183 | without a `root=` token the root is empty |
| RootParam.NonRootIdentity | src/lib.rs:189-192 | a token list without root tokens is kept whole |
| MountPrefix.ScanLines | src/lib.rs:164-175 | the scan gives `/boot` exactly when a line whose fifth field is `/boot` comes before any line without a fifth field, gives `""` exactly when every line has a fifth field and none is `/boot`, and otherwise fails naming the first line without a fifth field |
| MountPrefix.GetPrefix | src/lib.rs:155-176 | an unreadable mount table is fatal; a table of well-formed lines gives `/boot` exactly when one of them mounts `/boot`, else `""` |
| MountPrefix.AfterPrefix | src/lib.rs:125 | the result is the text after the first occurrence of the prefix, and the call fails exactly when the prefix occurs nowhere |
| MountPrefix.StripPrefix | src/lib.rs:125-128 | stripping fails exactly when the prefix occurs nowhere in the path; otherwise the result is the text after the first occurrence of the prefix, or the whole path when nothing follows that occurrence |
| MountPrefix.StripThenRestore | src/lib.rs:124-128 | stripping the prefix from prefix + rest gives rest, so putting the prefix back restores the user's path |
| Selection.FindDefault | src/lib.rs:200-221 | the enumeration loop returns the entry at the default index when it exists and otherwise reports that there is no default entry |
| Selection.DefaultIndex | src/lib.rs:178-180 | the default index is the fixed placeholder 0, the first enumeration position |
| Selection.GetDefaultEntry | src/lib.rs:199-222 | the default entry exists exactly when there is an entry, and it is the first one |
| Selection.Select | src/lib.rs:237-260 | each selected pair is an existing entry with its own index, indices strictly increase, and an index is selected exactly when its entry matches the selector |
| Selection.IsMatch | src/lib.rs:248-252 | `ALL` matches every entry and `DEFAULT` the entry at the default index; a selector matches only when it is `ALL`, `DEFAULT`, all digits, starts with the prefix or starts with `TITLE=` |
| Selection.SelectionStep | src/lib.rs:237-260 | putting the entry at the current index in front of the later selection exactly when it matches keeps the selection complete, ordered and made of matching entries |
| Selection.GetBlsList | src/lib.rs:224-261 | a failure to read the mount prefix is the call's failure; otherwise the result is the selection of the entries under that prefix and the fixed default index |
| Selection.SelectAll | src/lib.rs:248 | `ALL` selects every entry, in enumeration order, each with its index |
| Selection.SelectDefault | src/lib.rs:249 | `DEFAULT` selects an entry exactly when it is at the default index or its prefixed kernel path reads `DEFAULT` |
| Selection.SelectDefaultIsFirst | src/lib.rs:178-180 | with the fixed default index, `DEFAULT` selects exactly the first entry when no prefixed kernel path reads `DEFAULT` |
| Selection.SelectIndex | src/lib.rs:250 | a decimal selector selects the entry whose index prints as it, or one whose prefixed kernel path reads as it |
| Selection.SelectIndexUnique | src/lib.rs:250 | a decimal selector selects exactly the entry with that index when no kernel path collides |
| Selection.SelectPathUnderBoot | src/lib.rs:251 | under `/boot`, the selector `/boot` + p selects exactly the entries whose stored kernel path is p |
| Selection.SelectTitle | src/lib.rs:252 | `TITLE=t` selects the entries titled t, plus any whose prefixed kernel path reads `TITLE=t` |
| Selection.SelectTitleUnderBoot | src/lib.rs:252 | under `/boot`, `TITLE=t` selects exactly the entries titled t |
| Selection.SingleMatch | src/lib.rs:248-255 | when exactly one index matches, the selection is that entry alone |
| Selection.NoMatch | src/lib.rs:248-260 | when nothing matches, the selection is empty rather than an error |
| Selection.DefaultEntryIsDefaultSelection | src/lib.rs:199-222 | the entry copied by `--copy-default` is the one the `DEFAULT` selector picks |
| AddKernel.KernelVersion | src/lib.rs:103-109 | the version is the text after the first occurrence of `vmlinuz-` in the kernel path, and empty when the path has no `vmlinuz-` or nothing follows it |
| AddKernel.VersionOfKernelPath | src/lib.rs:103-109 | a kernel path `dir` + `vmlinuz-` + v in which no `vmlinuz-` starts inside `dir` has version v |
| AddKernel.MarkerNotInDir | src/lib.rs:103-109 | a directory without the letter `v` cannot hold the start of `vmlinuz-` |
| AddKernel.ComposeOptions | src/lib.rs:94-101 | without `--args` the options are the seed; with them they end with the arguments, preceded by the seed and one space when the seed is non-empty |
| AddKernel.ComposeOptionsTokens | src/lib.rs:94-101 | the tokens of the composed options are the seed's tokens followed by the argument tokens |
| AddKernel.SeedOptions | src/lib.rs:83-92 | with `--copy-default` the seed is the default entry's options, or fails when there is no entry; otherwise it is empty |
| AddKernel.StripPaths | src/lib.rs:124-141 | without a prefix the paths are kept; with one, the call succeeds exactly when the kernel, the initrd and any non-empty extra initrd contain the prefix, fails on the first of them (kernel, initrd, extra) that does not, and otherwise strips the kernel and the initrd, a non-empty stripped extra initrd taking the initrd slot |
| AddKernel.DefaultInitrd | src/lib.rs:113 | the synthesized initrd path starts with the prefix, and stripping the prefix from it leaves `/initramfs-<version>.img` |
| AddKernel.InitrdList | src/lib.rs:41-45 | the initrd list starts with the initrd and has a second element, the extra initrd, exactly when one is given |
| AddKernel.ReadMachineId | src/lib.rs:15-20 | an unreadable identity file is fatal; otherwise the identity is the file's trimmed contents |
| AddKernel.HandleAddKernel | src/lib.rs:74-146 | a missing title, a missing default entry, a mount-table failure, a path without the prefix and an unreadable identity file (`MachineIdUnreadable`) each fail the command, in that order; a new entry has the requested title, the version, identifier (machine id, `-`, version), the stripped kernel and initrd paths, the options composed from the seed and `--args`, and the initrd list as the options dictate |
| AddKernel.AddedKernelKeepsPath | src/lib.rs:124-128 | under `/boot` the kernel `/boot` + rest is stored as rest, so prefix plus stored path is the user's path |
| AddKernel.SynthesizedInitrd | src/lib.rs:113-117 | under `/boot` and without initrd options the single initrd is `/initramfs-<version>.img` |
| AddKernel.ExtraInitrdOverwrites | src/lib.rs:119-141 | under `/boot`, an extra initrd `/boot` + x yields the initrd list [x, `/boot` + x] |
| AddKernel.AddKernelScenario | src/lib.rs:22-146 | adding `/boot/vmlinuz-5.10.0` titled Fedora with `/boot` mounted yields the entry `abcdef123456-5.10.0` with stripped paths |
| Info.EntryId | src/lib.rs:272 | the identifier is the file name without its last five characters, and a shorter name panics |
| Info.EntryIdOfConfFile | src/lib.rs:272 | the file `id.conf` has identifier `id` |
| Info.QuotedReadBack | src/lib.rs:276-285 | a printed `key="value"` line starts with the key and `="`, holds the value verbatim and ends with the closing quote |
| Info.InfoBlock | src/lib.rs:266-286 | one entry prints seven lines, or eight with a second initrd: index, prefixed kernel, arguments and root split apart, prefixed initrds, title, identifier; a short file name panics with `NameTooShort`, checked first, and an `initrd` key with no values panics with `NoInitrd` |
| Info.InfoShowsOptionsVerbatim | src/lib.rs:274-279 | options without `root=` are shown verbatim as the arguments, with an empty root |
| Info.InfoReport | src/lib.rs:263-287 | the report succeeds exactly when every selected entry's block prints, and the report of n entries has between 7n and 8n lines |
| Info.InfoReportStopsAtFirstFailure | src/lib.rs:266-286 | the report fails with the error of the first entry whose block fails: the entries after it are never reached |
| Info.InfoReportAppend | src/lib.rs:266-286 | the report of two selections is the report of the first followed by the report of the second, and fails exactly when one of them fails |
| Info.InfoReportSingle | src/lib.rs:266-286 | the report of one entry is its block |
| Info.HandleInfo | src/lib.rs:289-297 | the selection's failure is the command's failure; otherwise the output is the report of the selection under the mount prefix |
| Remove.RemoveTrace | src/lib.rs:301-316 | the deletions are the selected indices in selection order; the default is unset immediately before the default entry is deleted and at no other time |
| Remove.DeletesAppend | src/lib.rs:304-315 | the deletions of two traces in sequence are the deletions of the first followed by those of the second |
| Remove.RemoveEntries | src/lib.rs:301-316 | removal succeeds exactly when no selected deletion fails; a failure stops at the first failing entry and reports the events up to and including it |
| Remove.HandleRemoveKernel | src/lib.rs:318-326 | a failure to read the mount prefix is the command's failure; otherwise the outcome is the removal of the entries the selector picks under that prefix |
| Remove.DeletesDistinct | src/lib.rs:304-315 | no entry is deleted twice |
| Update.UpdateEntries | src/lib.rs:328-345 | for each selected entry, in order, the removal of the `--remove-args` tokens comes before the setting of the `--args` tokens, and only selected entries are edited |
| Update.UpdateStep | src/lib.rs:328-345 | the two calls for the first selected entry in front of the calls for the rest are the calls for the whole selection, all on selected indices |
| Update.HandleUpdateKernel | src/lib.rs:347-369 | without `--args` and `--remove-args` the command fails; otherwise a failure to read the mount prefix is its failure, and else it edits exactly the entries the selector picks under that prefix, a missing option counting as empty |
| Grubby.Dispatch | src/lib.rs:371-387 | add-kernel is handled when present, then info, then remove-kernel, then update-kernel; with none the program does nothing |
| Grubby.DispatchIsFirstRaised | src/lib.rs:371-387 | the command that runs is the first requested one in the order add, info, remove, update |
| Grubby.LaterCommandsIgnored | src/lib.rs:371-387 | options that agree up to the deciding flag dispatch the same way: later commands never run |
| Grubby.Run | src/lib.rs:371-387 | the outcome is the dispatched handler's outcome: the run succeeds exactly when that handler does, fails with that handler's error, and does nothing exactly when no command is given |
| Grubby.SelectingCommandsNeedMountTable | src/lib.rs:224-235 | info and remove fail when the mount table cannot be read |

## Left out

- `src/main.rs` (option parsing and usage text) is not part of this model. The parsed options are the `Bls.Matches` value.
- Reading files is not modelled. The machine identity file, the mount table and the entry directory are inputs. Mount-table lines that are not valid UTF-8 are skipped by the program; the input holds only the readable lines.
- The record-store library (`blsctl`) is not part of this model: entry parsing, enumeration order, file creation, `set`, `cmdline_remove` and `cmdline_set`. Its failures to enumerate, parse, create, set or edit the command line are not modelled: the exits at src/lib.rs:36-39, 203-206, 209-212, 229-235 and 240-243, and the `.expect` panics of `cmdline_remove` and `cmdline_set` at src/lib.rs:340-343. Only a failing `delete` is (`System.undeletable`).
- A missing key reads as `[""]`, as `get_bls_value` does (src/lib.rs:148-153). The model's `Entry` holds the first value of `title`, `linux` and `options` directly, so it assumes the record store reports at least one value for each of these keys. A key reported with no values panics at `value[0]` (src/lib.rs:91), `linux[0]` and `title[0]` (src/lib.rs:251-252), and `options[0]`, `linux[0]` and `title[0]` (src/lib.rs:274, 277, 284); that case is not represented. Only `initrd` is a sequence, and its empty case is modelled.
- Update.UpdateEntries: records the remove-then-set calls only. What those calls do to the command line, including whether updating twice changes anything, lives in the record-store library.
- Remove.RemoveTrace: `unset_default_bls` does nothing in the program. The model records it as an `UnsetDefault` event so that its position can be stated.
- Output formatting is modelled as line strings. Error messages on standard error are not modelled; the `Error` value names the cause instead.
- Info.HandleInfo: lines already printed before a panic are not part of the failure result. These are the blocks of earlier entries and, when `initrd[0]` panics, the same entry's `index`, `kernel`, `args` and `root` lines (src/lib.rs:276-280).
- `print_bls_entries` reads the mount prefix a second time (src/lib.rs:264). The model reads it once, for both selecting and printing, because both reads see the same mount table.
- Selection.DefaultIndex: the default index is the program's fixed placeholder 0. The boot loader's saved default is not read.
- Byte-versus-character offsets are not modelled. Strings are sequences of characters, so slicing inside a multi-byte character cannot happen.
- Process exit codes are not modelled. Exit status 1 and panics are `Failure` values, and exit status 0 is a `Success` value.

=== FILE: addkernel.dfy ===
/** `handle_add_kernel` and `add_bls_entry`: computing the field set of a new
    entry from the command line, the default entry, the mount prefix and the
    machine identity. */
module AddKernel {
  import opened Results
  import opened Text
  import opened Bls
  import opened MountPrefix
  import Selection

  const VersionMarker: string := "vmlinuz-"

  /** The kernel version: the text after the first occurrence of `vmlinuz-`
      in the kernel path, `""` when the marker is absent or ends the path. */
  function KernelVersion(kernel: string): (v: string)
    ensures (forall j :: 0 <= j ==> !OccursAt(kernel, VersionMarker, j)) ==> v == ""
    ensures forall j: nat ::
              OccursAt(kernel, VersionMarker, j) && (forall i :: 0 <= i < j ==> !OccursAt(kernel, VersionMarker, i)) ==>
                v == kernel[j + |VersionMarker|..]
  {
    match Find(kernel, VersionMarker)
    case None => ""
    case Some(k) =>
      var start := k + |VersionMarker|;
      if |kernel| - start > 0 then kernel[start..] else ""
  }

  /** For a kernel path `dir` + `vmlinuz-` + `v` in which the marker does not
      start inside `dir`, the version is `v`. */
  lemma VersionOfKernelPath(dir: string, v: string)
    requires forall j :: 0 <= j < |dir| ==> !OccursAt(dir + VersionMarker + v, VersionMarker, j)
    ensures KernelVersion(dir + VersionMarker + v) == v
  {
    var kernel := dir + VersionMarker + v;
    assert kernel[|dir|..|dir| + |VersionMarker|] == VersionMarker;
    assert OccursAt(kernel, VersionMarker, |dir|);
    assert kernel[|dir| + |VersionMarker|..] == v;
  }

  /** A directory without the letter `v` cannot hold the start of the marker. */
  lemma MarkerNotInDir(dir: string, v: string)
    requires 'v' !in dir
    ensures forall j :: 0 <= j < |dir| ==> !OccursAt(dir + VersionMarker + v, VersionMarker, j)
  {
    var kernel := dir + VersionMarker + v;
    forall j | 0 <= j < |dir|
      ensures !OccursAt(kernel, VersionMarker, j)
    {
      assert j + |VersionMarker| <= |kernel|;
      assert kernel[j..j + |VersionMarker|][0] == kernel[j] == dir[j] != VersionMarker[0];
    }
  }

  /** `/boot/vmlinuz-5.10.0` has version `5.10.0`. */
  lemma VersionExample()
    ensures KernelVersion("/boot/vmlinuz-5.10.0") == "5.10.0"
  {
    assert 'v' !in "/boot/";
    assert "/boot/vmlinuz-5.10.0" == "/boot/" + VersionMarker + "5.10.0";
    MarkerNotInDir("/boot/", "5.10.0");
    VersionOfKernelPath("/boot/", "5.10.0");
  }

  /** The options of the new entry: the seed (the default entry's options, or
      `""`), extended by `--args` after one space, or replaced by them when the
      seed is empty. */
  function ComposeOptions(seed: string, args: Option<string>): (o: string)
    ensures args.None? ==> o == seed
    ensures args.Some? ==> |o| >= |args.value| && o[|o| - |args.value|..] == args.value
    ensures args.Some? && seed != "" ==> |o| > |seed| && o[..|seed|] == seed && o[|seed|] == ' '
  {
    match args
    case None => seed
    case Some(a) => if seed == "" then a else seed + " " + a
  }

  /** The composed options hold the seed's tokens followed by the tokens of
      `--args`: nothing is lost, reordered or merged. */
  lemma ComposeOptionsTokens(seed: string, a: string)
    ensures Split(ComposeOptions(seed, Some(a)), ' ') ==
              (if seed == "" then [] else Split(seed, ' ')) + Split(a, ' ')
  {
    if seed != "" {
      SplitAppend(seed, ' ', a);
    }
  }

  /** The seed for the options: the default entry's options with
      `--copy-default`, which fails when there is no default entry. */
  function SeedOptions(copyDefault: bool, entries: seq<Entry>): (r: Result<string, Error>)
    ensures !copyDefault ==> r == Success("")
    ensures copyDefault && |entries| == 0 ==> r == Failure(NoDefaultEntry)
    ensures copyDefault && |entries| > 0 ==> r == Success(entries[0].options)
  {
    if copyDefault then
      var e :- Selection.GetDefaultEntry(entries);
      Success(e.options)
    else Success("")
  }

  /** The initrd path used when `--initrd` is not given. */
  function DefaultInitrd(prefix: string, version: string): (r: string)
    ensures |prefix| <= |r| && r[..|prefix|] == prefix
    ensures MountPrefix.StripPrefix(r, prefix) == Success(InitrdName(version))
  {
    MountPrefix.StripThenRestore(prefix, InitrdName(version));
    prefix + InitrdName(version)
  }

  /** The initrd file name of a kernel version, relative to the boot
      directory. */
  function InitrdName(version: string): string {
    "/initramfs-" + version + ".img"
  }

  /** The stored kernel and initrd paths. With a non-empty prefix the kernel
      and initrd are stripped; a non-empty extra initrd, stripped, then takes
      the initrd slot (unless nothing follows its prefix). Every path must
      contain the prefix. */
  function StripPaths(kernel: string, initrd: string, extra: string, prefix: string)
    : (r: Result<(string, string), Error>)
    ensures prefix == "" ==> r == Success((kernel, initrd))
    ensures r.Failure? ==> r.error.PrefixNotInPath?
    ensures prefix != "" ==>
              (r.Success? <==>
                 && StripPrefix(kernel, prefix).Success?
                 && StripPrefix(initrd, prefix).Success?
                 && (extra == "" || AfterPrefix(extra, prefix).Success?))
    ensures prefix != "" && StripPrefix(kernel, prefix).Failure? ==> r == Failure(PrefixNotInPath(kernel))
    ensures prefix != "" && StripPrefix(kernel, prefix).Success? && StripPrefix(initrd, prefix).Failure? ==>
              r == Failure(PrefixNotInPath(initrd))
    ensures && prefix != "" && StripPrefix(kernel, prefix).Success? && StripPrefix(initrd, prefix).Success?
            && extra != "" && AfterPrefix(extra, prefix).Failure? ==>
              r == Failure(PrefixNotInPath(extra))
    ensures r.Success? && prefix != "" ==> StripPrefix(kernel, prefix) == Success(r.value.0)
    ensures r.Success? && prefix != "" && extra == "" ==> StripPrefix(initrd, prefix) == Success(r.value.1)
    ensures r.Success? && prefix != "" && extra != "" ==>
              AfterPrefix(extra, prefix).Success?
              && (|AfterPrefix(extra, prefix).value| > 0 ==> r.value.1 == AfterPrefix(extra, prefix).value)
              && (|AfterPrefix(extra, prefix).value| == 0 ==> StripPrefix(initrd, prefix) == Success(r.value.1))
  {
    if prefix == "" then Success((kernel, initrd))
    else
      var k :- StripPrefix(kernel, prefix);
      var i :- StripPrefix(initrd, prefix);
      if extra == "" then Success((k, i))
      else
        var x :- AfterPrefix(extra, prefix);
        Success((k, if |x| > 0 then x else i))
  }

  /** The stored kernel and initrd paths for the options `m` under the mount
      prefix `prefix`: the initrd defaults to the synthesized name, a missing
      extra initrd counts as empty. */
  function RequestedPaths(m: Matches, prefix: string): Result<(string, string), Error>
    requires m.addKernel.Some?
  {
    StripPaths(m.addKernel.value, m.initrd.Otherwise(DefaultInitrd(prefix, KernelVersion(m.addKernel.value))),
               m.extraInitrd.Otherwise(""), prefix)
  }

  /** `add_bls_entry`'s initrd list: the initrd, then the extra initrd when
      one is given. */
  function InitrdList(initrd: string, extra: string): (r: seq<string>)
    ensures 1 <= |r| <= 2 && r[0] == initrd
    ensures |r| == 2 <==> extra != ""
    ensures |r| == 2 ==> r[1] == extra
  {
    [initrd] + (if extra != "" then [extra] else [])
  }

  /** `get_machine_id`: the trimmed contents of the machine identity file. */
  function ReadMachineId(file: Option<string>): (r: Result<string, Error>)
    ensures file.None? ==> r == Failure(MachineIdUnreadable)
    ensures file.Some? ==> r == Success(Trim(file.value))
  {
    match file
    case None => Failure(MachineIdUnreadable)
    case Some(contents) => Success(Trim(contents))
  }

  /** `handle_add_kernel` followed by `add_bls_entry`: the entry written for
      the kernel named by `--add-kernel`. The checks happen in the program's
      order: title, default entry, mount table, prefixes, machine identity. */
  function HandleAddKernel(m: Matches, sys: System): (r: Result<NewEntry, Error>)
    requires m.addKernel.Some?
    ensures m.title.None? ==> r == Failure(TitleMissing)
    ensures m.title.Some? && m.copyDefault && |sys.entries| == 0 ==> r == Failure(NoDefaultEntry)
    ensures r.Success? ==> m.title.Some? && r.value.title == m.title.value
    ensures r.Success? ==> r.value.version == KernelVersion(m.addKernel.value)
    ensures r.Success? ==>
              sys.machineIdFile.Some? && r.value.id == Trim(sys.machineIdFile.value) + "-" + r.value.version
    ensures r.Success? ==> 1 <= |r.value.initrd| <= 2
    ensures r.Success? ==> (|r.value.initrd| == 2 <==> m.extraInitrd.Some? && m.extraInitrd.value != "")
    ensures r.Success? && |r.value.initrd| == 2 ==> r.value.initrd[1] == m.extraInitrd.value
    ensures r.Success? && m.args.None? ==>
              r.value.options == (if m.copyDefault then sys.entries[0].options else "")
    ensures r.Success? ==>
              && SeedOptions(m.copyDefault, sys.entries).Success?
              && r.value.options == ComposeOptions(SeedOptions(m.copyDefault, sys.entries).value, m.args)
    ensures m.title.Some? && SeedOptions(m.copyDefault, sys.entries).Success? && GetPrefix(sys.mountInfo).Failure? ==>
              r == Failure(GetPrefix(sys.mountInfo).error)
    ensures r.Success? ==>
              && GetPrefix(sys.mountInfo).Success?
              && RequestedPaths(m, GetPrefix(sys.mountInfo).value).Success?
              && r.value.linux == RequestedPaths(m, GetPrefix(sys.mountInfo).value).value.0
              && r.value.initrd[0] == RequestedPaths(m, GetPrefix(sys.mountInfo).value).value.1
    ensures && m.title.Some? && SeedOptions(m.copyDefault, sys.entries).Success? && GetPrefix(sys.mountInfo).Success?
            && RequestedPaths(m, GetPrefix(sys.mountInfo).value).Failure? ==>
              r == Failure(RequestedPaths(m, GetPrefix(sys.mountInfo).value).error)
    ensures && m.title.Some? && SeedOptions(m.copyDefault, sys.entries).Success? && GetPrefix(sys.mountInfo).Success?
            && RequestedPaths(m, GetPrefix(sys.mountInfo).value).Success? ==>
              (r.Success? <==> sys.machineIdFile.Some?)
    ensures && m.title.Some? && SeedOptions(m.copyDefault, sys.entries).Success? && GetPrefix(sys.mountInfo).Success?
            && RequestedPaths(m, GetPrefix(sys.mountInfo).value).Success? && sys.machineIdFile.None? ==>
              r == Failure(MachineIdUnreadable)
    ensures r.Success? ==>
              r.value.grubUsers == GrubUsers && r.value.grubArg == GrubArg && r.value.grubClass == GrubClass
  {
    if m.title.None? then Failure(TitleMissing)
    else
      var kernel := m.addKernel.value;
      var seed :- SeedOptions(m.copyDefault, sys.entries);
      var options := ComposeOptions(seed, m.args);
      var version := KernelVersion(kernel);
      var prefix :- GetPrefix(sys.mountInfo);
      var extra := m.extraInitrd.Otherwise("");
      var paths :- RequestedPaths(m, prefix);
      var machineId :- ReadMachineId(sys.machineIdFile);
      Success(NewEntry(
        machineId + "-" + version,
        m.title.value,
        version,
        paths.0,
        InitrdList(paths.1, extra),
        options,
        GrubUsers,
        GrubArg,
        GrubClass))
  }

  /** The mount table read from `sys` reports `/boot`. */
  predicate BootMounted(sys: System) {
    GetPrefix(sys.mountInfo) == Success(BootMount)
  }

  /** A kernel given as `/boot` + `rest` under a `/boot` mount is stored as
      `rest`, so the prefixed path the program shows and matches against is
      the path the user gave. */
  lemma AddedKernelKeepsPath(m: Matches, sys: System, rest: string)
    requires m.addKernel == Some(BootMount + rest) && |rest| > 0
    requires BootMounted(sys)
    ensures HandleAddKernel(m, sys).Success? ==> HandleAddKernel(m, sys).value.linux == rest
    ensures HandleAddKernel(m, sys).Success? ==> BootMount + HandleAddKernel(m, sys).value.linux == m.addKernel.value
  {
    StripThenRestore(BootMount, rest);
  }

  /** Under a `/boot` mount, without `--initrd` and `--extra-initrd`, the
      single stored initrd is the synthesized name without the prefix. */
  lemma SynthesizedInitrd(m: Matches, sys: System)
    requires m.addKernel.Some? && m.initrd.None? && m.extraInitrd.None?
    requires BootMounted(sys)
    ensures HandleAddKernel(m, sys).Success? ==>
              HandleAddKernel(m, sys).value.initrd == [InitrdName(KernelVersion(m.addKernel.value))]
  {
    var version := KernelVersion(m.addKernel.value);
    var name := InitrdName(version);
    StripThenRestore(BootMount, name);
    if HandleAddKernel(m, sys).Success? {
      var paths := StripPaths(m.addKernel.value, BootMount + name, "", BootMount);
      assert HandleAddKernel(m, sys).value.initrd == InitrdList(paths.value.1, "");
    }
  }

  /** Under a `/boot` mount an extra initrd `/boot` + `x` takes the first
      initrd slot as `x` and is stored again, unstripped, as the second: the
      primary initrd is not stored. */
  lemma ExtraInitrdOverwrites(m: Matches, sys: System, x: string)
    requires m.addKernel.Some? && m.extraInitrd == Some(BootMount + x) && |x| > 0
    requires BootMounted(sys)
    ensures HandleAddKernel(m, sys).Success? ==> HandleAddKernel(m, sys).value.initrd == [x, BootMount + x]
  {
    var extra := BootMount + x;
    assert extra[..|BootMount|] == BootMount;
    FindAtStart(extra, BootMount);
    assert extra[|BootMount|..] == x;
  }

  /** A mount table whose one line mounts `/boot` gives the prefix `/boot`. */
  lemma ScenarioPrefix()
    ensures GetPrefix(Some(["1 2 3 / /boot"])) == Success(BootMount)
  {
    assert "1 2 3 / /boot" == Join(["1", "2", "3", "/", "/boot"], " ");
    SplitJoin(["1", "2", "3", "/", "/boot"], ' ');
    assert MountsBoot("1 2 3 / /boot");
  }

  /** The scenario's kernel and synthesized initrd lose their `/boot`. */
  lemma ScenarioPaths()
    ensures StripPaths("/boot/vmlinuz-5.10.0", DefaultInitrd(BootMount, "5.10.0"), "", BootMount)
              == Success(("/vmlinuz-5.10.0", "/initramfs-5.10.0.img"))
  {
    assert "/boot/vmlinuz-5.10.0" == BootMount + "/vmlinuz-5.10.0";
    assert InitrdName("5.10.0") == "/initramfs-5.10.0.img";
    StripThenRestore(BootMount, "/vmlinuz-5.10.0");
    StripThenRestore(BootMount, "/initramfs-5.10.0.img");
  }

  /** The scenario's machine identity loses its trailing newline. */
  lemma ScenarioMachineId()
    ensures ReadMachineId(Some("abcdef123456\n")) == Success("abcdef123456")
  {
    assert "abcdef123456\n" == "abcdef123456" + "\n";
    TrimNewline("abcdef123456");
  }

  /** An example: adding `/boot/vmlinuz-5.10.0` titled `Fedora`
      with `/boot` mounted and machine identity `abcdef123456` followed by a
      newline yields the entry `abcdef123456-5.10.0` with the prefix stripped
      from its paths. */
  lemma AddKernelScenario()
    ensures HandleAddKernel(
              Matches(Some("/boot/vmlinuz-5.10.0"), Some("Fedora"), None, false, None, None, None, None, None, None),
              System(Some("abcdef123456\n"), Some(["1 2 3 / /boot"]), [], {}))
            == Success(NewEntry(
                 "abcdef123456-5.10.0", "Fedora", "5.10.0", "/vmlinuz-5.10.0",
                 ["/initramfs-5.10.0.img"], "", GrubUsers, GrubArg, GrubClass))
  {
    var m := Matches(Some("/boot/vmlinuz-5.10.0"), Some("Fedora"), None, false, None, None, None, None, None, None);
    var sys := System(Some("abcdef123456\n"), Some(["1 2 3 / /boot"]), [], {});
    assert NewEntry("abcdef123456-5.10.0", "Fedora", "5.10.0", "/vmlinuz-5.10.0",
                    ["/initramfs-5.10.0.img"], "", GrubUsers, GrubArg, GrubClass)
        == NewEntry("abcdef123456" + "-" + "5.10.0", "Fedora", "5.10.0", "/vmlinuz-5.10.0",
                    InitrdList("/initramfs-5.10.0.img", ""), "", GrubUsers, GrubArg, GrubClass)
    by {
      assert "abcdef123456" + "-" + "5.10.0" == "abcdef123456-5.10.0";
    }
    ScenarioPrefix();
    VersionExample();
    ScenarioPaths();
    ScenarioMachineId();
    assert SeedOptions(false, []) == Success("");
    assert HandleAddKernel(m, sys) == Success(NewEntry(
      "abcdef123456" + "-" + "5.10.0", "Fedora", "5.10.0", "/vmlinuz-5.10.0",
      InitrdList("/initramfs-5.10.0.img", ""), "", GrubUsers, GrubArg, GrubClass));
  }
}

=== FILE: bls.dfy ===
/** The data the program works on: boot entries as read from the record
    store, the field set written for a new entry, the parsed command line, the
    system inputs, the side effects handlers emit, and the ways a command
    aborts. */
module Bls {
  import opened Results

  /** One BootLoaderSpec entry as the program reads it. `name` is the backing
      file name (ending in `.conf`); `title`, `linux` and `options` are the first
      value of their keys, `""` when a key is absent, as `get_bls_value`
      returns; `initrd` holds every value of the `initrd` key in file order.
      An absent `initrd` key also reads as `[""]`, so an empty `initrd` stands
      only for a key the record store reports with no values, the one case in
      which `initrd[0]` panics. `title`, `linux` and `options` are taken to
      carry at least one value each: their empty case is not represented. */
  datatype Entry = Entry(
    name: string,
    title: string,
    linux: string,
    initrd: seq<string>,
    options: string)

  /** The fixed auxiliary fields every new entry receives. */
  const GrubUsers: string := "$grub_users"
  const GrubArg: string := "--unrestricted"
  const GrubClass: string := "kernel"

  /** The field set `add_bls_entry` writes into a freshly created entry whose
      identifier is `id`. */
  datatype NewEntry = NewEntry(
    id: string,
    title: string,
    version: string,
    linux: string,
    initrd: seq<string>,
    options: string,
    grubUsers: string,
    grubArg: string,
    grubClass: string)

  /** A side effect of removal: clearing the saved default, or deleting the
      entry at an enumeration index. */
  datatype RemoveEvent = UnsetDefault | Delete(index: nat)

  /** A side effect of update: editing the kernel command line of the entry at
      an enumeration index. */
  datatype UpdateEvent =
    | CmdlineRemove(index: nat, tokens: seq<string>)
    | CmdlineSet(index: nat, tokens: seq<string>)

  /** Why a command aborted. `Exit` errors end the process with status 1;
      `Panic` errors are Rust panics (an `unwrap` on `None` or an index out of
      bounds). */
  datatype Error =
    | TitleMissing
    | ArgsMissing
    | NoDefaultEntry
    | MountInfoUnreadable
    | MachineIdUnreadable
    | DeleteFailed(index: nat, performed: seq<RemoveEvent>)
    | MountLineTooShort(line: string)
    | PrefixNotInPath(path: string)
    | NameTooShort(name: string)
    | NoInitrd(index: nat)
  {
    /** The error is a panic rather than a deliberate `process::exit(1)`. */
    predicate IsPanic() {
      MountLineTooShort? || PrefixNotInPath? || NameTooShort? || NoInitrd?
    }
  }

  /** The options the program reads from its command line; `None` when the
      option is absent. */
  datatype Matches = Matches(
    addKernel: Option<string>,
    title: Option<string>,
    args: Option<string>,
    copyDefault: bool,
    initrd: Option<string>,
    extraInitrd: Option<string>,
    info: Option<string>,
    removeKernel: Option<string>,
    updateKernel: Option<string>,
    removeArgs: Option<string>)

  /** What the program reads from the running system: the contents of the
      machine identity file and the lines of the mount table (`None` when they
      cannot be read), the entries of the record store in enumeration order,
      and the enumeration indices whose backing file cannot be deleted. */
  datatype System = System(
    machineIdFile: Option<string>,
    mountInfo: Option<seq<string>>,
    entries: seq<Entry>,
    undeletable: set<nat>)
}

=== FILE: grubby.dfy ===
/** `run`: the entry point that hands the parsed options to one handler.
    Every handler ends the process, so only the first requested command, in
    the order add, info, remove, update, takes effect. */
module Grubby {
  import opened Results
  import opened Bls
  import AddKernel
  import Info
  import Remove
  import Update

  datatype Command = AddKernelCommand | InfoCommand | RemoveKernelCommand | UpdateKernelCommand | NoCommand

  /** Which handler runs for the given options. */
  function Dispatch(m: Matches): (c: Command)
    ensures c == AddKernelCommand <==> m.addKernel.Some?
    ensures c == InfoCommand <==> m.addKernel.None? && m.info.Some?
    ensures c == RemoveKernelCommand <==> m.addKernel.None? && m.info.None? && m.removeKernel.Some?
    ensures c == UpdateKernelCommand <==>
              m.addKernel.None? && m.info.None? && m.removeKernel.None? && m.updateKernel.Some?
    ensures c == NoCommand <==>
              m.addKernel.None? && m.info.None? && m.removeKernel.None? && m.updateKernel.None?
  {
    if m.addKernel.Some? then AddKernelCommand
    else if m.info.Some? then InfoCommand
    else if m.removeKernel.Some? then RemoveKernelCommand
    else if m.updateKernel.Some? then UpdateKernelCommand
    else NoCommand
  }

  /** The command flags in dispatch order. */
  function Flags(m: Matches): seq<bool> {
    [m.addKernel.Some?, m.info.Some?, m.removeKernel.Some?, m.updateKernel.Some?]
  }

  /** The position of the first raised flag, or `|flags|` when none is. */
  function FirstRaised(flags: seq<bool>): (r: nat)
    ensures r <= |flags|
    ensures r < |flags| ==> flags[r]
    ensures forall k :: 0 <= k < r ==> !flags[k]
  {
    if |flags| == 0 then 0
    else if flags[0] then 0
    else 1 + FirstRaised(flags[1..])
  }

  /** The command at each position of `Flags`. */
  function CommandAt(k: nat): Command {
    if k == 0 then AddKernelCommand
    else if k == 1 then InfoCommand
    else if k == 2 then RemoveKernelCommand
    else if k == 3 then UpdateKernelCommand
    else NoCommand
  }

  /** Dispatch runs the command of the first raised flag. */
  lemma DispatchIsFirstRaised(m: Matches)
    ensures Dispatch(m) == CommandAt(FirstRaised(Flags(m)))
  {
    var f := Flags(m);
    assert f[1..] == [f[1], f[2], f[3]];
    assert f[1..][1..] == [f[2], f[3]];
    assert f[1..][1..][1..] == [f[3]];
    assert f[1..][1..][1..][1..] == [];
  }

  /** Options that agree on every flag up to and including the one that
      decides the command dispatch the same way: later commands are never
      reached. */
  lemma LaterCommandsIgnored(m: Matches, m': Matches)
    requires FirstRaised(Flags(m)) < 4
    requires forall k :: 0 <= k <= FirstRaised(Flags(m)) ==> Flags(m)[k] == Flags(m')[k]
    ensures Dispatch(m') == Dispatch(m)
  {
    DispatchIsFirstRaised(m);
    DispatchIsFirstRaised(m');
    var k, k' := FirstRaised(Flags(m)), FirstRaised(Flags(m'));
    assert Flags(m')[k];
  }

  /** The observable outcome of one run. */
  datatype Effect =
    | Added(entry: NewEntry)
    | Printed(lines: seq<string>)
    | Removed(removals: seq<RemoveEvent>)
    | Updated(edits: seq<UpdateEvent>)
    | NoAction

  /** `run`: the dispatched handler's outcome; with no command the program
      does nothing. */
  function Run(m: Matches, sys: System): (r: Result<Effect, Error>)
    ensures r.Success? && r.value.NoAction? <==> Dispatch(m) == NoCommand
    ensures r.Success? && r.value.Added? ==>
              Dispatch(m) == AddKernelCommand && AddKernel.HandleAddKernel(m, sys) == Success(r.value.entry)
    ensures r.Success? && r.value.Printed? ==>
              Dispatch(m) == InfoCommand && Info.HandleInfo(m.info.value, sys) == Success(r.value.lines)
    ensures r.Success? && r.value.Removed? ==>
              && Dispatch(m) == RemoveKernelCommand
              && Remove.HandleRemoveKernel(m.removeKernel.value, sys) == Success(r.value.removals)
    ensures r.Success? && r.value.Updated? ==>
              Dispatch(m) == UpdateKernelCommand && Update.HandleUpdateKernel(m, sys) == Success(r.value.edits)
    ensures r.Failure? ==> Dispatch(m) != NoCommand
    ensures Dispatch(m) == AddKernelCommand ==>
              && (r.Success? <==> AddKernel.HandleAddKernel(m, sys).Success?)
              && (r.Failure? ==> r.error == AddKernel.HandleAddKernel(m, sys).error)
    ensures Dispatch(m) == InfoCommand ==>
              && (r.Success? <==> Info.HandleInfo(m.info.value, sys).Success?)
              && (r.Failure? ==> r.error == Info.HandleInfo(m.info.value, sys).error)
    ensures Dispatch(m) == RemoveKernelCommand ==>
              && (r.Success? <==> Remove.HandleRemoveKernel(m.removeKernel.value, sys).Success?)
              && (r.Failure? ==> r.error == Remove.HandleRemoveKernel(m.removeKernel.value, sys).error)
    ensures Dispatch(m) == UpdateKernelCommand ==>
              && (r.Success? <==> Update.HandleUpdateKernel(m, sys).Success?)
              && (r.Failure? ==> r.error == Update.HandleUpdateKernel(m, sys).error)
  {
    match Dispatch(m)
    case AddKernelCommand =>
      var entry :- AddKernel.HandleAddKernel(m, sys);
      Success(Added(entry))
    case InfoCommand =>
      var lines :- Info.HandleInfo(m.info.value, sys);
      Success(Printed(lines))
    case RemoveKernelCommand =>
      var events :- Remove.HandleRemoveKernel(m.removeKernel.value, sys);
      Success(Removed(events))
    case UpdateKernelCommand =>
      var events :- Update.HandleUpdateKernel(m, sys);
      Success(Updated(events))
    case NoCommand => Success(NoAction)
  }

  /** A run that dispatches to info or remove fails with the mount-table
      error when the mount table cannot be read: both resolve their selector
      first. */
  lemma SelectingCommandsNeedMountTable(m: Matches, sys: System)
    requires Dispatch(m) == InfoCommand || Dispatch(m) == RemoveKernelCommand
    requires sys.mountInfo.None?
    ensures Run(m, sys) == Failure(MountInfoUnreadable)
  {
  }
}

=== FILE: info.dfy ===
/** `print_bls_entries` and `handle_info`: the labelled lines the `info`
    command prints for each selected entry. */
module Info {
  import opened Results
  import opened Text
  import opened Bls
  import RootParam
  import MountPrefix
  import Selection

  const ConfSuffix: string := ".conf"

  /** The entry identifier: the backing file name without its last five
      characters (the `.conf` suffix); a shorter name makes the slice panic. */
  function EntryId(name: string): (r: Result<string, Error>)
    ensures r.Success? <==> |name| >= |ConfSuffix|
    ensures r.Failure? ==> r.error == NameTooShort(name)
    ensures r.Success? ==> |r.value| == |name| - |ConfSuffix| && name[..|r.value|] == r.value
  {
    if |name| < |ConfSuffix| then Failure(NameTooShort(name))
    else Success(name[..|name| - |ConfSuffix|])
  }

  /** The identifier of the file `id.conf` is `id`. */
  lemma EntryIdOfConfFile(id: string)
    ensures EntryId(id + ConfSuffix) == Success(id)
  {
    assert (id + ConfSuffix)[..|id|] == id;
  }

  /** One printed line `key="value"`. */
  function Quoted(key: string, value: string): string {
    key + "=\"" + value + "\""
  }

  /** A printed line reads back: the key comes first, then `="`, then the
      value verbatim up to the closing quote, which ends the line. */
  lemma QuotedReadBack(key: string, value: string)
    ensures var line := Quoted(key, value);
            && |line| == |key| + |value| + 3
            && line[..|key|] == key && line[|key|..|key| + 2] == "=\""
            && line[|key| + 2..|line| - 1] == value && line[|line| - 1] == '"'
  {
  }

  /** The block printed for the entry at `index`: index, kernel with the
      prefix put back, arguments and root split apart, one or two initrds
      with the prefix, title and identifier. An entry without an initrd value
      makes `initrd[0]` panic. */
  function InfoBlock(index: nat, e: Entry, prefix: string): (r: Result<seq<string>, Error>)
    ensures r.Success? <==> |e.name| >= |ConfSuffix| && |e.initrd| > 0
    ensures |e.name| < |ConfSuffix| ==> r == Failure(NameTooShort(e.name))
    ensures |e.name| >= |ConfSuffix| && |e.initrd| == 0 ==> r == Failure(NoInitrd(index))
    ensures r.Success? ==> |r.value| == (if |e.initrd| > 1 then 8 else 7)
    ensures r.Success? ==> r.value[0] == "index=" + NatToString(index)
    ensures r.Success? ==> r.value[1] == Quoted("kernel", prefix + e.linux)
    ensures r.Success? ==>
              var (args, root) := RootParam.SeparateRoot(e.options);
              r.value[2] == Quoted("args", args) && r.value[3] == Quoted("root", root)
    ensures r.Success? ==> r.value[4] == Quoted("initrd", prefix + e.initrd[0])
    ensures r.Success? && |e.initrd| > 1 ==> r.value[5] == Quoted("initrd", prefix + e.initrd[1])
    ensures r.Success? ==> r.value[|r.value| - 2] == Quoted("title", e.title)
    ensures r.Success? ==> r.value[|r.value| - 1] == Quoted("id", EntryId(e.name).value)
  {
    var id :- EntryId(e.name);
    var (args, root) := RootParam.SeparateRoot(e.options);
    if |e.initrd| == 0 then Failure(NoInitrd(index))
    else
      Success(
        ["index=" + NatToString(index),
         Quoted("kernel", prefix + e.linux),
         Quoted("args", args),
         Quoted("root", root),
         Quoted("initrd", prefix + e.initrd[0])]
        + (if |e.initrd| > 1 then [Quoted("initrd", prefix + e.initrd[1])] else [])
        + [Quoted("title", e.title), Quoted("id", id)])
  }

  /** The blocks of all selected entries, in selection order; the first
      entry whose block panics aborts the report. */
  function InfoReport(selected: seq<(nat, Entry)>, prefix: string): (r: Result<seq<string>, Error>)
    ensures r.Success? <==> AllBlocksPrint(selected, prefix)
    ensures r.Success? ==> 7 * |selected| <= |r.value| <= 8 * |selected|
  {
    if |selected| == 0 then Success([])
    else
      AllBlocksPrintCons(selected, prefix);
      Prepend(InfoBlock(selected[0].0, selected[0].1, prefix), InfoReport(selected[1..], prefix))
  }

  /** The report stops at the first entry whose block fails, with that
      block's error: later entries are never reached. */
  lemma {:induction false} InfoReportStopsAtFirstFailure(selected: seq<(nat, Entry)>, prefix: string, j: nat)
    requires j < |selected| && InfoBlock(selected[j].0, selected[j].1, prefix).Failure?
    requires forall l :: 0 <= l < j ==> InfoBlock(selected[l].0, selected[l].1, prefix).Success?
    ensures InfoReport(selected, prefix) == Failure(InfoBlock(selected[j].0, selected[j].1, prefix).error)
    decreases j
  {
    if j > 0 {
      var tail := selected[1..];
      assert tail[j - 1] == selected[j];
      forall l | 0 <= l < j - 1
        ensures InfoBlock(tail[l].0, tail[l].1, prefix).Success?
      {
        assert tail[l] == selected[l + 1];
      }
      InfoReportStopsAtFirstFailure(tail, prefix, j - 1);
    }
  }

  /** Every selected entry prints its block without panicking. */
  predicate AllBlocksPrint(selected: seq<(nat, Entry)>, prefix: string) {
    forall k :: 0 <= k < |selected| ==> InfoBlock(selected[k].0, selected[k].1, prefix).Success?
  }

  /** Every entry prints exactly when the first one does and all later ones do. */
  lemma AllBlocksPrintCons(selected: seq<(nat, Entry)>, prefix: string)
    requires |selected| > 0
    ensures AllBlocksPrint(selected, prefix) <==>
              InfoBlock(selected[0].0, selected[0].1, prefix).Success? && AllBlocksPrint(selected[1..], prefix)
  {
    assert forall k :: 1 <= k < |selected| ==> selected[k] == selected[1..][k - 1];
  }

  /** `handle_info`: resolve the selector, then print the selected entries
      with the mount prefix put back on their paths. Selecting and printing
      read the same mount table, so both see the same prefix and the mount
      table is consulted once here. */
  function HandleInfo(sel: string, sys: System): (r: Result<seq<string>, Error>)
    ensures sys.mountInfo.None? ==> r == Failure(MountInfoUnreadable)
    ensures Selection.GetBlsList(sel, sys).Failure? ==> r == Failure(Selection.GetBlsList(sel, sys).error)
    ensures Selection.GetBlsList(sel, sys).Success? ==>
              r == InfoReport(Selection.GetBlsList(sel, sys).value, MountPrefix.GetPrefix(sys.mountInfo).value)
  {
    match MountPrefix.GetPrefix(sys.mountInfo)
    case Failure(e) => Failure(e)
    case Success(prefix) => InfoReport(Selection.Select(sel, sys.entries, Selection.DefaultIndex(), prefix), prefix)
  }

  /** The report of a selection is the concatenation of the reports of its
      parts: each entry contributes its own block, independently of the
      others. */
  lemma {:induction false} InfoReportAppend(a: seq<(nat, Entry)>, b: seq<(nat, Entry)>, prefix: string)
    ensures AppendReports(a, b, prefix)
    decreases |a|
  {
    if |a| == 0 {
      assert a + b == b;
    } else {
      InfoReportAppend(a[1..], b, prefix);
      InfoReportAppendStep(a, b, prefix);
    }
  }

  /** The report of `a + b` fails exactly when one of the parts fails, and
      otherwise is the report of `a` followed by the report of `b`. */
  predicate AppendReports(a: seq<(nat, Entry)>, b: seq<(nat, Entry)>, prefix: string) {
    && (InfoReport(a + b, prefix).Success? <==> InfoReport(a, prefix).Success? && InfoReport(b, prefix).Success?)
    && (InfoReport(a + b, prefix).Success? ==>
          InfoReport(a + b, prefix).value == InfoReport(a, prefix).value + InfoReport(b, prefix).value)
  }

  /** The inductive step of `InfoReportAppend`. */
  lemma InfoReportAppendStep(a: seq<(nat, Entry)>, b: seq<(nat, Entry)>, prefix: string)
    requires |a| > 0
    requires AppendReports(a[1..], b, prefix)
    ensures AppendReports(a, b, prefix)
  {
    assert [a[0]] + a[1..] == a;
    assert [a[0]] + (a[1..] + b) == a + b;
    InfoReportCons(a[0], a[1..] + b, prefix);
    InfoReportCons(a[0], a[1..], prefix);
    PrependAppend(InfoBlock(a[0].0, a[0].1, prefix), InfoReport(a[1..], prefix),
                  InfoReport(b, prefix), InfoReport(a[1..] + b, prefix));
  }

  /** Put one block of lines in front of a report; a failure of either
      aborts, the block's first. */
  function Prepend(block: Result<seq<string>, Error>, rest: Result<seq<string>, Error>): (r: Result<seq<string>, Error>)
    ensures r.Success? <==> block.Success? && rest.Success?
    ensures r.Success? ==> |r.value| == |block.value| + |rest.value|
    ensures block.Failure? ==> r == Failure(block.error)
    ensures block.Success? && rest.Failure? ==> r == Failure(rest.error)
  {
    var lines :- block;
    var more :- rest;
    Success(lines + more)
  }

  /** Prepending a block commutes with joining two reports. */
  lemma PrependAppend(block: Result<seq<string>, Error>, l: Result<seq<string>, Error>,
                      r: Result<seq<string>, Error>, lr: Result<seq<string>, Error>)
    requires lr.Success? <==> l.Success? && r.Success?
    requires lr.Success? ==> lr.value == l.value + r.value
    ensures Prepend(block, lr).Success? <==> Prepend(block, l).Success? && r.Success?
    ensures Prepend(block, lr).Success? ==> Prepend(block, lr).value == Prepend(block, l).value + r.value
  {
    if Prepend(block, lr).Success? {
      assert block.value + (l.value + r.value) == (block.value + l.value) + r.value;
    }
  }

  /** One entry in front of a selection puts its block in front of the
      selection's report. */
  lemma InfoReportCons(head: (nat, Entry), tail: seq<(nat, Entry)>, prefix: string)
    ensures InfoReport([head] + tail, prefix) == Prepend(InfoBlock(head.0, head.1, prefix), InfoReport(tail, prefix))
  {
    assert ([head] + tail)[0] == head;
    assert ([head] + tail)[1..] == tail;
  }

  /** The report of a single entry is exactly its block. */
  lemma InfoReportSingle(index: nat, e: Entry, prefix: string)
    ensures InfoReport([(index, e)], prefix) == InfoBlock(index, e, prefix)
  {
    assert [(index, e)][1..] == [];
    var block := InfoBlock(index, e, prefix);
    if block.Success? {
      assert block.value + [] == block.value;
    }
  }

  /** An entry whose options carry no `root=` token shows its options
      verbatim as the arguments and an empty root. */
  lemma InfoShowsOptionsVerbatim(index: nat, e: Entry, prefix: string)
    requires |e.name| >= |ConfSuffix| && |e.initrd| > 0
    requires forall k :: 0 <= k < |Split(e.options, ' ')| ==> !StartsWith(Split(e.options, ' ')[k], RootParam.RootTag)
    ensures InfoBlock(index, e, prefix).value[2] == Quoted("args", e.options)
    ensures InfoBlock(index, e, prefix).value[3] == Quoted("root", "")
  {
    RootParam.NoRootRoundTrip(e.options);
  }
}

=== FILE: mountprefix.dfy ===
/** `get_prefix` and the prefix arithmetic on paths: whether `/boot` is a
    mount point, and stripping that prefix from user-supplied paths. */
module MountPrefix {
  import opened Results
  import opened Text
  import opened Bls

  const BootMount: string := "/boot"

  /** The line has a fifth space-separated field (the mount point). */
  predicate HasMountField(line: string) {
    |Split(line, ' ')| >= 5
  }

  /** The fifth space-separated field of the line is `/boot`. */
  predicate MountsBoot(line: string) {
    HasMountField(line) && Split(line, ' ')[4] == BootMount
  }

  /** The scan of `get_prefix` over the lines from position `i` on: the first
      line whose fifth field is `/boot` yields `/boot`; a line without a fifth
      field met before that panics (`columns[4]` is out of bounds); no match
      yields `""`. */
  function ScanLines(lines: seq<string>, i: nat): (r: Result<string, Error>)
    requires i <= |lines|
    ensures r == Success(BootMount) <==>
              exists j ::
                && i <= j < |lines|
                && MountsBoot(lines[j])
                && forall k :: i <= k < j ==> HasMountField(lines[k])
    ensures r == Success("") <==> forall k :: i <= k < |lines| ==> HasMountField(lines[k]) && !MountsBoot(lines[k])
    ensures r.Failure? ==> exists j :: i <= j < |lines| && r.error == MountLineTooShort(lines[j])
    ensures forall j :: i <= j < |lines| && !HasMountField(lines[j]) && NoBootBefore(lines, i, j) ==>
              r == Failure(MountLineTooShort(lines[j]))
    ensures r.Success? ==> r.value == BootMount || r.value == ""
    decreases |lines| - i
  {
    if i == |lines| then Success("")
    else if !HasMountField(lines[i]) then Failure(MountLineTooShort(lines[i]))
    else if MountsBoot(lines[i]) then Success(BootMount)
    else ScanLines(lines, i + 1)
  }

  /** Every line from `i` up to `j` has a fifth field and none mounts `/boot`. */
  predicate NoBootBefore(lines: seq<string>, i: nat, j: nat)
    requires i <= j <= |lines|
  {
    forall k :: i <= k < j ==> HasMountField(lines[k]) && !MountsBoot(lines[k])
  }

  /** `get_prefix`: `/boot` when the mount table shows a file system mounted
      there, `""` otherwise; an unreadable mount table is fatal. */
  function GetPrefix(mountInfo: Option<seq<string>>): (r: Result<string, Error>)
    ensures mountInfo.None? ==> r == Failure(MountInfoUnreadable)
    ensures mountInfo.Some? && (forall k :: 0 <= k < |mountInfo.value| ==> HasMountField(mountInfo.value[k])) ==>
              r == Success(if exists k :: 0 <= k < |mountInfo.value| && MountsBoot(mountInfo.value[k]) then BootMount else "")
    ensures r.Success? ==> r.value == BootMount || r.value == ""
  {
    match mountInfo
    case None => Failure(MountInfoUnreadable)
    case Some(lines) => ScanLines(lines, 0)
  }

  /** The text after the first occurrence of `prefix` in `path`; the program
      panics (`find(..).unwrap()`) when the prefix does not occur. */
  function AfterPrefix(path: string, prefix: string): (r: Result<string, Error>)
    ensures r.Failure? <==> forall j :: 0 <= j ==> !OccursAt(path, prefix, j)
    ensures r.Failure? ==> r.error == PrefixNotInPath(path)
    ensures r.Success? ==>
              exists j: nat ::
                && OccursAt(path, prefix, j)
                && (forall i :: 0 <= i < j ==> !OccursAt(path, prefix, i))
                && r.value == path[j + |prefix|..]
  {
    match Find(path, prefix)
    case None => Failure(PrefixNotInPath(path))
    case Some(k) => Success(path[k + |prefix|..])
  }

  /** Stripping the mount prefix from a path as `handle_add_kernel` does for
      the kernel and the initrd: the text after the first occurrence of the
      prefix, or the path unchanged when nothing follows the prefix. */
  function StripPrefix(path: string, prefix: string): (r: Result<string, Error>)
    ensures r.Failure? <==> forall j :: 0 <= j ==> !OccursAt(path, prefix, j)
    ensures r.Failure? ==> r.error == PrefixNotInPath(path)
    ensures r.Success? ==>
              exists j: nat ::
                && OccursAt(path, prefix, j)
                && (forall i :: 0 <= i < j ==> !OccursAt(path, prefix, i))
                && r.value == (if j + |prefix| < |path| then path[j + |prefix|..] else path)
  {
    var rest :- AfterPrefix(path, prefix);
    if |rest| > 0 then Success(rest) else Success(path)
  }

  /** Stripping is undone by putting the prefix back, as `info` does when it
      prints paths: for a path that starts with the prefix and goes on beyond
      it, the stored remainder is exactly what follows the prefix. */
  lemma {:induction false} StripThenRestore(prefix: string, rest: string)
    requires |rest| > 0
    ensures StripPrefix(prefix + rest, prefix) == Success(rest)
  {
    var path := prefix + rest;
    assert path[..|prefix|] == prefix;
    FindAtStart(path, prefix);
    assert path[|prefix|..] == rest;
  }
}

=== FILE: remove.dfy ===
/** `remove_bls_entries` and `handle_remove_kernel`: removal as a trace of
    side effects, where the saved default is cleared just before the default
    entry is deleted. */
module Remove {
  import opened Results
  import opened Bls
  import MountPrefix
  import Selection

  /** The enumeration indices of a selection, in order. */
  function Indices(selected: seq<(nat, Entry)>): (r: seq<nat>)
    ensures |r| == |selected|
    ensures forall k :: 0 <= k < |r| ==> r[k] == selected[k].0
  {
    if |selected| == 0 then [] else [selected[0].0] + Indices(selected[1..])
  }

  /** The indices of the `Delete` events of a trace, in order. */
  function Deletes(t: seq<RemoveEvent>): seq<nat>
  {
    if |t| == 0 then []
    else (if t[0].Delete? then [t[0].index] else []) + Deletes(t[1..])
  }

  /** `Deletes` distributes over concatenation. */
  lemma {:induction false} DeletesAppend(a: seq<RemoveEvent>, b: seq<RemoveEvent>)
    ensures Deletes(a + b) == Deletes(a) + Deletes(b)
    decreases |a|
  {
    if |a| > 0 {
      var head: seq<nat> := if a[0].Delete? then [a[0].index] else [];
      assert (a + b)[0] == a[0];
      assert (a + b)[1..] == a[1..] + b;
      DeletesAppend(a[1..], b);
      assert Deletes(a + b) == head + Deletes(a[1..] + b);
      assert Deletes(a) == head + Deletes(a[1..]);
      assert head + (Deletes(a[1..]) + Deletes(b)) == (head + Deletes(a[1..])) + Deletes(b);
    } else {
      assert a + b == b;
    }
  }

  /** The events of one loop iteration: unset the default first when the entry
      is the default one, then delete it. */
  function StepEvents(index: nat, default: nat): seq<RemoveEvent> {
    (if index == default then [UnsetDefault] else []) + [Delete(index)]
  }

  /** The trace of removing `selected` when every delete succeeds: one
      `Delete` per selected entry in selection order; every `UnsetDefault` is
      immediately followed by the deletion of the default entry, and every
      deletion of the default entry immediately follows an `UnsetDefault`. */
  function RemoveTrace(selected: seq<(nat, Entry)>, default: nat): (t: seq<RemoveEvent>)
    ensures Deletes(t) == Indices(selected)
    ensures forall p :: 0 <= p < |t| && t[p] == UnsetDefault ==> p + 1 < |t| && t[p + 1] == Delete(default)
    ensures forall p :: 0 <= p < |t| && t[p] == Delete(default) ==> p > 0 && t[p - 1] == UnsetDefault
  {
    if |selected| == 0 then []
    else
      var step := StepEvents(selected[0].0, default);
      var rest := RemoveTrace(selected[1..], default);
      DeletesAppend(step, rest);
      assert Deletes(step) == [selected[0].0];
      ShiftedTrace(selected[0].0, rest, default);
      step + rest
  }

  /** Prepending one iteration's events keeps the adjacency of `UnsetDefault`
      and the default's deletion. */
  lemma ShiftedTrace(index: nat, rest: seq<RemoveEvent>, default: nat)
    requires forall p :: 0 <= p < |rest| && rest[p] == UnsetDefault ==> p + 1 < |rest| && rest[p + 1] == Delete(default)
    requires forall p :: 0 <= p < |rest| && rest[p] == Delete(default) ==> p > 0 && rest[p - 1] == UnsetDefault
    ensures var t := StepEvents(index, default) + rest;
            forall p :: 0 <= p < |t| && t[p] == UnsetDefault ==> p + 1 < |t| && t[p + 1] == Delete(default)
    ensures var t := StepEvents(index, default) + rest;
            forall p :: 0 <= p < |t| && t[p] == Delete(default) ==> p > 0 && t[p - 1] == UnsetDefault
  {
    var step := StepEvents(index, default);
    var t := step + rest;
    assert |rest| > 0 ==> rest[0] != Delete(default);
    forall p | 0 <= p < |t| && t[p] == UnsetDefault
      ensures p + 1 < |t| && t[p + 1] == Delete(default)
    {
      if p >= |step| {
        assert t[p] == rest[p - |step|];
        assert t[p + 1] == rest[p - |step| + 1];
      }
    }
    forall p | 0 <= p < |t| && t[p] == Delete(default)
      ensures p > 0 && t[p - 1] == UnsetDefault
    {
      if p >= |step| {
        assert t[p] == rest[p - |step|];
        if p > |step| {
          assert t[p - 1] == rest[p - |step| - 1];
        }
      }
    }
  }

  /** The position in `selected` of the first entry whose delete fails. */
  function FirstFailure(selected: seq<(nat, Entry)>, undeletable: set<nat>): (r: Option<nat>)
    ensures r.None? <==> forall k :: 0 <= k < |selected| ==> selected[k].0 !in undeletable
    ensures r.Some? ==> r.value < |selected| && selected[r.value].0 in undeletable
    ensures r.Some? ==> forall l :: 0 <= l < r.value ==> selected[l].0 !in undeletable
  {
    if |selected| == 0 then None
    else if selected[0].0 in undeletable then Some(0)
    else match FirstFailure(selected[1..], undeletable)
      case None => None
      case Some(k) => Some(k + 1)
  }

  /** The trace of a non-empty prefix of a selection starts with the first
      entry's events. */
  lemma RemoveTracePrefix(selected: seq<(nat, Entry)>, default: nat, k: nat)
    requires k < |selected|
    ensures RemoveTrace(selected[..k + 1], default)
            == StepEvents(selected[0].0, default) + RemoveTrace(selected[1..][..k], default)
  {
    assert selected[..k + 1][0] == selected[0];
    assert selected[..k + 1][1..] == selected[1..][..k];
  }

  /** `remove_bls_entries`: the entries are processed in selection order; a
      delete that fails (the entry's index is in `undeletable`) is fatal and
      stops the loop, reporting the events performed up to and including the
      failed delete. */
  function RemoveEntries(selected: seq<(nat, Entry)>, default: nat, undeletable: set<nat>)
    : (r: Result<seq<RemoveEvent>, Error>)
    ensures r.Success? <==> FirstFailure(selected, undeletable).None?
    ensures r.Success? ==> r.value == RemoveTrace(selected, default)
    ensures r.Failure? ==>
              var k := FirstFailure(selected, undeletable).value;
              r.error == DeleteFailed(selected[k].0, RemoveTrace(selected[..k + 1], default))
  {
    if |selected| == 0 then Success([])
    else
      var index := selected[0].0;
      var step := StepEvents(index, default);
      if index in undeletable then
        RemoveTracePrefix(selected, default, 0);
        Failure(DeleteFailed(index, step))
      else
        var rest := RemoveEntries(selected[1..], default, undeletable);
        if rest.Success? then Success(step + rest.value)
        else
          FailureAfterFirst(selected, default, undeletable);
          Failure(DeleteFailed(rest.error.index, step + rest.error.performed))
  }

  /** When the first entry is deleted and a later delete fails, the failing
      position moves up by one and its trace gains the first entry's events
      in front. */
  lemma FailureAfterFirst(selected: seq<(nat, Entry)>, default: nat, undeletable: set<nat>)
    requires |selected| > 0 && selected[0].0 !in undeletable
    requires FirstFailure(selected[1..], undeletable).Some?
    ensures var k := FirstFailure(selected[1..], undeletable).value;
            && FirstFailure(selected, undeletable) == Some(k + 1)
            && selected[k + 1] == selected[1..][k]
            && RemoveTrace(selected[..k + 2], default)
               == StepEvents(selected[0].0, default) + RemoveTrace(selected[1..][..k + 1], default)
  {
    var k := FirstFailure(selected[1..], undeletable).value;
    RemoveTracePrefix(selected, default, k + 1);
  }

  /** `handle_remove_kernel`: resolve the selector, then remove the selected
      entries against the default index. */
  function HandleRemoveKernel(sel: string, sys: System): (r: Result<seq<RemoveEvent>, Error>)
    ensures sys.mountInfo.None? ==> r == Failure(MountInfoUnreadable)
    ensures MountPrefix.GetPrefix(sys.mountInfo).Failure? ==>
              r == Failure(MountPrefix.GetPrefix(sys.mountInfo).error)
    ensures MountPrefix.GetPrefix(sys.mountInfo).Success? ==>
              r == RemoveEntries(
                     Selection.Select(sel, sys.entries, Selection.DefaultIndex(), MountPrefix.GetPrefix(sys.mountInfo).value),
                     Selection.DefaultIndex(), sys.undeletable)
  {
    var selected :- Selection.GetBlsList(sel, sys);
    RemoveEntries(selected, Selection.DefaultIndex(), sys.undeletable)
  }

  /** A selection deletes each of its entries once: in a selection the
      deleted indices are distinct, so the default entry is unset at most
      once. */
  lemma DeletesDistinct(sel: string, entries: seq<Entry>, default: nat, prefix: string)
    ensures var d := Deletes(RemoveTrace(Selection.Select(sel, entries, default, prefix), default));
            forall k, l :: 0 <= k < l < |d| ==> d[k] < d[l]
  {
  }
}

=== FILE: results.dfy ===
/** Failure-compatible wrappers used throughout the model: every fatal path of
    the program (a `process::exit(1)` or a panic) becomes a `Failure` value that
    the callers propagate with `:-`. */
module Results {

  /** An optional value; `None` stands for an absent command-line option or an
      unreadable input file. */
  datatype Option<+T> = None | Some(value: T) {

    /** How the program reads an optional setting: the value given, and
        `fallback` when the option was left out. */
    function Otherwise(fallback: T): T {
      if Some? then value else fallback
    }
  }

  /** Either a value or the error that aborted the computation. */
  datatype Result<+R, +E> = Success(value: R) | Failure(error: E) {

    predicate IsFailure() {
      Failure?
    }

    function PropagateFailure<U>(): Result<U, E>
      requires Failure?
    {
      Failure(error)
    }

    function Extract(): R
      requires Success?
    {
      value
    }
  }
}

=== FILE: rootparam.dfy ===
/** `separate_root_param`: splitting a kernel command line into the `root=`
    value and the remaining arguments, for the `info` report. */
module RootParam {
  import opened Text

  const RootTag: string := "root="

  /** The tokens of `tokens` that are not `root=` parameters, in order. */
  function NonRoot(tokens: seq<string>): (r: seq<string>)
    ensures |r| <= |tokens|
    ensures forall k :: 0 <= k < |r| ==> !StartsWith(r[k], RootTag) && r[k] in tokens
  {
    if |tokens| == 0 then []
    else if StartsWith(tokens[0], RootTag) then NonRoot(tokens[1..])
    else [tokens[0]] + NonRoot(tokens[1..])
  }

  /** The value of the last `root=` token, or `""` when there is none. */
  function LastRoot(tokens: seq<string>): string
  {
    if |tokens| == 0 then ""
    else if StartsWith(tokens[|tokens| - 1], RootTag) then tokens[|tokens| - 1][|RootTag|..]
    else LastRoot(tokens[..|tokens| - 1])
  }

  /** The pair `(args, root)` the program shows: the non-root tokens joined by
      single spaces, and the last root value. */
  function SeparateRoot(options: string): (string, string)
  {
    var tokens := Split(options, ' ');
    (Join(NonRoot(tokens), " "), LastRoot(tokens))
  }

  /** The root `SeparateRoot` shows is the value of the last `root=` token
      among the options' tokens, and empty when there is none. */
  lemma SeparatedRoot(options: string)
    ensures (forall k :: 0 <= k < |Split(options, ' ')| ==> !StartsWith(Split(options, ' ')[k], RootTag)) ==>
              SeparateRoot(options).1 == ""
    ensures forall j :: 0 <= j < |Split(options, ' ')| && IsLastRoot(Split(options, ' '), j) ==>
              SeparateRoot(options).1 == Split(options, ' ')[j][|RootTag|..]
  {
    var tokens := Split(options, ' ');
    assert SeparateRoot(options).1 == LastRoot(tokens);
    LastRootFacts(tokens);
  }

  /** The last root of a token list is empty without root tokens, and is the
      value of the last root token otherwise. */
  lemma LastRootFacts(ts: seq<string>)
    ensures (forall k :: 0 <= k < |ts| ==> !StartsWith(ts[k], RootTag)) ==> LastRoot(ts) == ""
    ensures forall j :: 0 <= j < |ts| && IsLastRoot(ts, j) ==> LastRoot(ts) == ts[j][|RootTag|..]
  {
    if forall k :: 0 <= k < |ts| ==> !StartsWith(ts[k], RootTag) {
      LastRootAbsent(ts);
    }
    forall j | 0 <= j < |ts| && IsLastRoot(ts, j)
      ensures LastRoot(ts) == ts[j][|RootTag|..]
    {
      LastRootWins(ts, j);
    }
  }

  /** Token `j` is a `root=` token and no later token is. */
  predicate IsLastRoot(ts: seq<string>, j: nat)
    requires j < |ts|
  {
    StartsWith(ts[j], RootTag) && forall k :: j < k < |ts| ==> !StartsWith(ts[k], RootTag)
  }

  /** The text the loop has accumulated after the tokens `ts`: each non-root
      token followed by one space. */
  function Accumulated(ts: seq<string>): string
  {
    if |ts| == 0 then ""
    else
      var last := ts[|ts| - 1];
      Accumulated(ts[..|ts| - 1]) + (if StartsWith(last, RootTag) then "" else last + " ")
  }

  /** The accumulated text is the joined non-root tokens plus a trailing
      space, when there is any non-root token. */
  lemma {:induction false} AccumulatedIsJoin(ts: seq<string>)
    ensures NonRoot(ts) == [] ==> Accumulated(ts) == ""
    ensures NonRoot(ts) != [] ==> Accumulated(ts) == Join(NonRoot(ts), " ") + " "
    decreases |ts|
  {
    if |ts| > 0 {
      var init := ts[..|ts| - 1];
      var last := ts[|ts| - 1];
      AccumulatedIsJoin(init);
      NonRootSnoc(init, last);
      assert ts == init + [last];
      assert Accumulated(ts) == Accumulated(init) + (if StartsWith(last, RootTag) then "" else last + " ");
      if !StartsWith(last, RootTag) {
        assert NonRoot(ts) == NonRoot(init) + [last];
        if NonRoot(init) != [] {
          JoinSnoc(NonRoot(init), last, " ");
          assert Accumulated(ts) == Join(NonRoot(init), " ") + " " + last + " ";
        } else {
          assert NonRoot(ts) == [last];
          assert Accumulated(ts) == last + " ";
        }
      } else {
        assert NonRoot(ts) == NonRoot(init);
      }
    }
  }

  /** Appending a token to the list extends the non-root tokens accordingly. */
  lemma {:induction false} NonRootSnoc(ts: seq<string>, t: string)
    ensures NonRoot(ts + [t]) == NonRoot(ts) + (if StartsWith(t, RootTag) then [] else [t])
    decreases |ts|
  {
    if |ts| == 0 {
      assert [t][1..] == [];
    } else {
      assert (ts + [t])[1..] == ts[1..] + [t];
      NonRootSnoc(ts[1..], t);
    }
  }

  /** Joining one more piece adds the separator and the piece at the end. */
  lemma {:induction false} JoinSnoc(parts: seq<string>, p: string, sep: string)
    requires |parts| >= 1
    ensures Join(parts + [p], sep) == Join(parts, sep) + sep + p
    decreases |parts|
  {
    if |parts| == 1 {
      assert (parts + [p])[1..] == [p];
    } else {
      assert (parts + [p])[1..] == parts[1..] + [p];
      JoinSnoc(parts[1..], p, sep);
    }
  }

  /** The loop of `separate_root_param`: every token is either a root token,
      which overwrites `root`, or is appended to `args` followed by a space;
      finally the last character of `args` is popped. It computes the joined
      non-root tokens and the value of the last root token. */
  method SeparateRootParam(options: string) returns (args: string, root: string)
    ensures args == Join(NonRoot(Split(options, ' ')), " ")
    ensures root == LastRoot(Split(options, ' '))
  {
    var tokens := Split(options, ' ');
    root := "";
    args := "";
    var i := 0;
    while i < |tokens|
      invariant 0 <= i <= |tokens|
      invariant args == Accumulated(tokens[..i])
      invariant root == LastRoot(tokens[..i])
    {
      var option := tokens[i];
      assert tokens[..i + 1][..i] == tokens[..i];
      if StartsWith(option, RootTag) {
        root := option[|RootTag|..];
      } else {
        args := args + option + " ";
      }
      i := i + 1;
    }
    assert tokens[..i] == tokens;
    AccumulatedIsJoin(tokens);
    if |args| > 0 {
      args := args[..|args| - 1];
    }
  }

  /** Without a `root=` token the arguments are the options string itself,
      character for character (the empty string included), and the root is
      empty. */
  lemma NoRootRoundTrip(options: string)
    requires forall k :: 0 <= k < |Split(options, ' ')| ==> !StartsWith(Split(options, ' ')[k], RootTag)
    ensures SeparateRoot(options) == (options, "")
  {
    var tokens := Split(options, ' ');
    NonRootIdentity(tokens);
    LastRootAbsent(tokens);
    JoinSplit(options, ' ');
  }

  /** A list without root tokens is its own non-root part. */
  lemma {:induction false} NonRootIdentity(ts: seq<string>)
    requires forall k :: 0 <= k < |ts| ==> !StartsWith(ts[k], RootTag)
    ensures NonRoot(ts) == ts
    decreases |ts|
  {
    if |ts| > 0 {
      NonRootIdentity(ts[1..]);
    }
  }

  /** A list without root tokens has the empty root. */
  lemma {:induction false} LastRootAbsent(ts: seq<string>)
    requires forall k :: 0 <= k < |ts| ==> !StartsWith(ts[k], RootTag)
    ensures LastRoot(ts) == ""
    decreases |ts|
  {
    if |ts| > 0 {
      LastRootAbsent(ts[..|ts| - 1]);
    }
  }

  /** When token `j` is a root token and no later token is, the root is the
      text after `root=` in token `j`: the last root wins. */
  lemma {:induction false} LastRootWins(ts: seq<string>, j: nat)
    requires j < |ts| && StartsWith(ts[j], RootTag)
    requires forall k :: j < k < |ts| ==> !StartsWith(ts[k], RootTag)
    ensures LastRoot(ts) == ts[j][|RootTag|..]
    decreases |ts|
  {
    if j < |ts| - 1 {
      LastRootWins(ts[..|ts| - 1], j);
    }
  }

  /** The arguments split back into exactly the non-root tokens, in their
      original order, whenever there is at least one non-root token. */
  lemma ArgsAreNonRootTokens(options: string)
    requires NonRoot(Split(options, ' ')) != []
    ensures Split(SeparateRoot(options).0, ' ') == NonRoot(Split(options, ' '))
  {
    var tokens := Split(options, ' ');
    var kept := NonRoot(tokens);
    forall k | 0 <= k < |kept|
      ensures ' ' !in kept[k]
    {
      var t :| t in tokens && t == kept[k];
    }
    SplitJoin(kept, ' ');
  }
}

=== FILE: selection.dfy ===
/** `get_default_index`, `get_default_entry` and the match rule of
    `get_bls_list`: resolving a selector string against the entries in
    enumeration order. */
module Selection {
  import opened Results
  import opened Text
  import opened Bls
  import MountPrefix

  /** `get_default_index`: the default entry is always the first one. */
  function DefaultIndex(): (r: nat)
    ensures r == 0
  {
    0
  }

  /** The loop of `get_default_entry` from enumeration index `index` on: it
      returns the entry whose index is `default`, and fails once the entries
      are exhausted. */
  function FindDefault(entries: seq<Entry>, default: nat, index: nat): (r: Result<Entry, Error>)
    requires index <= |entries|
    ensures index <= default < |entries| ==> r == Success(entries[default])
    ensures !(index <= default < |entries|) ==> r == Failure(NoDefaultEntry)
    decreases |entries| - index
  {
    if index == |entries| then Failure(NoDefaultEntry)
    else if index == default then Success(entries[index])
    else FindDefault(entries, default, index + 1)
  }

  /** `get_default_entry`: the first entry, or an error when there is none. */
  function GetDefaultEntry(entries: seq<Entry>): (r: Result<Entry, Error>)
    ensures r.Success? <==> |entries| > 0
    ensures r.Success? ==> r.value == entries[0]
    ensures r.Failure? ==> r.error == NoDefaultEntry
  {
    FindDefault(entries, DefaultIndex(), 0)
  }

  const AllSelector: string := "ALL"
  const DefaultSelector: string := "DEFAULT"
  const TitleTag: string := "TITLE="

  /** The match rule of `get_bls_list`: an entry is selected when any of the
      five selector forms names it. */
  predicate IsMatch(sel: string, index: nat, e: Entry, default: nat, prefix: string): (b: bool)
    ensures sel == AllSelector ==> b
    ensures sel == DefaultSelector && index == default ==> b
    ensures b ==>
              || sel == AllSelector || sel == DefaultSelector || AllDigits(sel)
              || StartsWith(sel, prefix) || StartsWith(sel, TitleTag)
  {
    assert StartsWith(prefix + e.linux, prefix) by { assert (prefix + e.linux)[..|prefix|] == prefix; }
    assert StartsWith(TitleTag + e.title, TitleTag) by { assert (TitleTag + e.title)[..|TitleTag|] == TitleTag; }
    || sel == AllSelector
    || (sel == DefaultSelector && index == default)
    || sel == NatToString(index)
    || sel == prefix + e.linux
    || sel == TitleTag + e.title
  }

  /** The index `i` occurs in the selection `r`. */
  predicate Selected(r: seq<(nat, Entry)>, i: nat) {
    exists k :: 0 <= k < |r| && r[k].0 == i
  }

  /** `r` selects, from enumeration index `from` on, exactly the matching
      entries, each with its index, in enumeration order. */
  predicate IsSelectionFrom(r: seq<(nat, Entry)>, sel: string, entries: seq<Entry>, default: nat, prefix: string, from: nat) {
    && (forall k :: 0 <= k < |r| ==>
          && from <= r[k].0 < |entries|
          && r[k].1 == entries[r[k].0]
          && IsMatch(sel, r[k].0, r[k].1, default, prefix))
    && (forall k, l :: 0 <= k < l < |r| ==> r[k].0 < r[l].0)
    && (forall i :: from <= i < |entries| && IsMatch(sel, i, entries[i], default, prefix) ==> Selected(r, i))
  }

  /** The selection from enumeration index `from` on: every matching entry
      paired with its index, in enumeration order, each exactly once. */
  function SelectFrom(sel: string, entries: seq<Entry>, default: nat, prefix: string, from: nat)
    : (r: seq<(nat, Entry)>)
    requires from <= |entries|
    ensures forall k :: 0 <= k < |r| ==>
              && from <= r[k].0 < |entries|
              && r[k].1 == entries[r[k].0]
              && IsMatch(sel, r[k].0, r[k].1, default, prefix)
    ensures forall k, l :: 0 <= k < l < |r| ==> r[k].0 < r[l].0
    ensures forall i :: from <= i < |entries| && IsMatch(sel, i, entries[i], default, prefix) ==> Selected(r, i)
    decreases |entries| - from
  {
    if from == |entries| then []
    else
      var rest := SelectFrom(sel, entries, default, prefix, from + 1);
      SelectionStep(rest, sel, entries, default, prefix, from);
      if IsMatch(sel, from, entries[from], default, prefix) then [(from, entries[from])] + rest
      else rest
  }

  /** One step of `SelectFrom`: the selection from `from + 1` on, with the
      entry at `from` put in front when it matches, is the selection from
      `from` on. */
  lemma SelectionStep(rest: seq<(nat, Entry)>, sel: string, entries: seq<Entry>, default: nat, prefix: string, from: nat)
    requires from < |entries|
    requires IsSelectionFrom(rest, sel, entries, default, prefix, from + 1)
    ensures IsMatch(sel, from, entries[from], default, prefix) ==>
              IsSelectionFrom([(from, entries[from])] + rest, sel, entries, default, prefix, from)
    ensures !IsMatch(sel, from, entries[from], default, prefix) ==>
              IsSelectionFrom(rest, sel, entries, default, prefix, from)
  {
    if IsMatch(sel, from, entries[from], default, prefix) {
      var p := (from, entries[from]);
      SelectedCons(p, rest);
      ConsMembers(p, rest, sel, entries, default, prefix, from);
      ConsOrdered(p, rest, from);
    }
  }

  /** Every pair of a selection with a matching pair for `from` in front is a
      matching entry from `from` on. */
  lemma ConsMembers(p: (nat, Entry), rest: seq<(nat, Entry)>, sel: string, entries: seq<Entry>, default: nat, prefix: string, from: nat)
    requires from < |entries| && p == (from, entries[from]) && IsMatch(sel, from, entries[from], default, prefix)
    requires forall k :: 0 <= k < |rest| ==>
               && from + 1 <= rest[k].0 < |entries|
               && rest[k].1 == entries[rest[k].0]
               && IsMatch(sel, rest[k].0, rest[k].1, default, prefix)
    ensures var r := [p] + rest;
            forall k :: 0 <= k < |r| ==>
              && from <= r[k].0 < |entries|
              && r[k].1 == entries[r[k].0]
              && IsMatch(sel, r[k].0, r[k].1, default, prefix)
  {
    var r := [p] + rest;
    forall k | 0 < k < |r| ensures r[k] == rest[k - 1] { }
  }

  /** A pair whose index lies below every index of an increasing selection
      keeps it increasing when put in front. */
  lemma ConsOrdered(p: (nat, Entry), rest: seq<(nat, Entry)>, from: nat)
    requires p.0 == from
    requires forall k :: 0 <= k < |rest| ==> from + 1 <= rest[k].0
    requires forall k, l :: 0 <= k < l < |rest| ==> rest[k].0 < rest[l].0
    ensures var r := [p] + rest;
            forall k, l :: 0 <= k < l < |r| ==> r[k].0 < r[l].0
  {
    var r := [p] + rest;
    forall k, l | 0 <= k < l < |r|
      ensures r[k].0 < r[l].0
    {
      assert r[l] == rest[l - 1];
      if k > 0 {
        assert r[k] == rest[k - 1];
      }
    }
  }

  /** Putting a pair in front keeps every index already selected and selects
      the new one. */
  lemma SelectedCons(p: (nat, Entry), rest: seq<(nat, Entry)>)
    ensures Selected([p] + rest, p.0)
    ensures forall i :: Selected(rest, i) ==> Selected([p] + rest, i)
  {
    assert ([p] + rest)[0] == p;
    forall i | Selected(rest, i) ensures Selected([p] + rest, i) {
      var k :| 0 <= k < |rest| && rest[k].0 == i;
      assert ([p] + rest)[k + 1] == rest[k];
    }
  }

  /** The entries `sel` selects, paired with their enumeration indices. */
  function Select(sel: string, entries: seq<Entry>, default: nat, prefix: string): (r: seq<(nat, Entry)>)
    ensures forall k :: 0 <= k < |r| ==> r[k].0 < |entries| && r[k].1 == entries[r[k].0]
    ensures forall k, l :: 0 <= k < l < |r| ==> r[k].0 < r[l].0
    ensures forall i :: 0 <= i < |entries| ==> (Selected(r, i) <==> IsMatch(sel, i, entries[i], default, prefix))
  {
    SelectFrom(sel, entries, default, prefix, 0)
  }

  /** `get_bls_list`: the mount prefix is read first (its failures are fatal),
      then the entries are matched against the selector. */
  function GetBlsList(sel: string, sys: System): (r: Result<seq<(nat, Entry)>, Error>)
    ensures sys.mountInfo.None? ==> r == Failure(MountInfoUnreadable)
    ensures MountPrefix.GetPrefix(sys.mountInfo).Failure? ==>
              r == Failure(MountPrefix.GetPrefix(sys.mountInfo).error)
    ensures MountPrefix.GetPrefix(sys.mountInfo).Success? ==>
              r == Success(Select(sel, sys.entries, DefaultIndex(), MountPrefix.GetPrefix(sys.mountInfo).value))
  {
    var prefix :- MountPrefix.GetPrefix(sys.mountInfo);
    Success(Select(sel, sys.entries, DefaultIndex(), prefix))
  }

  /** From enumeration index `from` on, a selector that matches nothing
      selects nothing. */
  lemma {:induction false} NoMatchFrom(sel: string, entries: seq<Entry>, default: nat, prefix: string, from: nat)
    requires from <= |entries|
    requires forall i :: from <= i < |entries| ==> !IsMatch(sel, i, entries[i], default, prefix)
    ensures SelectFrom(sel, entries, default, prefix, from) == []
    decreases |entries| - from
  {
    if from < |entries| {
      NoMatchFrom(sel, entries, default, prefix, from + 1);
    }
  }

  /** From enumeration index `from` on, a selector that matches exactly the
      index `j` selects that single entry. */
  lemma {:induction false} SingleMatchFrom(sel: string, entries: seq<Entry>, default: nat, prefix: string, from: nat, j: nat)
    requires from <= j < |entries|
    requires forall i :: from <= i < |entries| ==> (IsMatch(sel, i, entries[i], default, prefix) <==> i == j)
    ensures SelectFrom(sel, entries, default, prefix, from) == [(j, entries[j])]
    decreases |entries| - from
  {
    if from == j {
      NoMatchFrom(sel, entries, default, prefix, from + 1);
    } else {
      SingleMatchFrom(sel, entries, default, prefix, from + 1, j);
    }
  }

  /** When exactly index `j` matches, the selection is that single entry. */
  lemma SingleMatch(sel: string, entries: seq<Entry>, default: nat, prefix: string, j: nat)
    requires j < |entries|
    requires forall i :: 0 <= i < |entries| ==> (IsMatch(sel, i, entries[i], default, prefix) <==> i == j)
    ensures Select(sel, entries, default, prefix) == [(j, entries[j])]
  {
    SingleMatchFrom(sel, entries, default, prefix, 0, j);
  }

  /** When no index matches, the selection is empty (not an error). */
  lemma NoMatch(sel: string, entries: seq<Entry>, default: nat, prefix: string)
    requires forall i :: 0 <= i < |entries| ==> !IsMatch(sel, i, entries[i], default, prefix)
    ensures Select(sel, entries, default, prefix) == []
  {
    NoMatchFrom(sel, entries, default, prefix, 0);
  }

  /** Every entry from index `from` on, paired with its index. */
  function Enumerate(entries: seq<Entry>, from: nat): (r: seq<(nat, Entry)>)
    requires from <= |entries|
    ensures |r| == |entries| - from
    ensures forall k :: 0 <= k < |r| ==> r[k] == (from + k, entries[from + k])
    decreases |entries| - from
  {
    if from == |entries| then [] else [(from, entries[from])] + Enumerate(entries, from + 1)
  }

  /** From enumeration index `from` on, `ALL` selects every entry in order. */
  lemma {:induction false} SelectAllFrom(entries: seq<Entry>, default: nat, prefix: string, from: nat)
    requires from <= |entries|
    ensures SelectFrom(AllSelector, entries, default, prefix, from) == Enumerate(entries, from)
    decreases |entries| - from
  {
    if from < |entries| {
      var head := [(from, entries[from])];
      SelectAllFrom(entries, default, prefix, from + 1);
      assert IsMatch(AllSelector, from, entries[from], default, prefix);
      assert SelectFrom(AllSelector, entries, default, prefix, from)
             == head + SelectFrom(AllSelector, entries, default, prefix, from + 1);
      assert Enumerate(entries, from) == head + Enumerate(entries, from + 1);
    }
  }

  /** `ALL` selects every entry, in enumeration order, paired with its index;
      with no entries the selection is empty. */
  lemma SelectAll(entries: seq<Entry>, default: nat, prefix: string)
    ensures |Select(AllSelector, entries, default, prefix)| == |entries|
    ensures forall k :: 0 <= k < |entries| ==> Select(AllSelector, entries, default, prefix)[k] == (k, entries[k])
  {
    SelectAllFrom(entries, default, prefix, 0);
  }

  /** `DEFAULT` selects the entry at the default index, and otherwise only an
      entry whose prefixed kernel path is literally `DEFAULT`. */
  lemma SelectDefault(entries: seq<Entry>, default: nat, prefix: string, i: nat)
    requires i < |entries|
    ensures Selected(Select(DefaultSelector, entries, default, prefix), i) <==>
              i == default || prefix + entries[i].linux == DefaultSelector
  {
    var digits := NatToString(i);
    assert digits[0] != DefaultSelector[0];
    assert (TitleTag + entries[i].title)[0] != DefaultSelector[0];
  }

  /** With the placeholder default index and no entry whose prefixed kernel
      path reads `DEFAULT`, `DEFAULT` selects exactly the first entry. */
  lemma SelectDefaultIsFirst(entries: seq<Entry>, prefix: string)
    requires |entries| > 0
    requires forall i :: 0 <= i < |entries| ==> prefix + entries[i].linux != DefaultSelector
    ensures Select(DefaultSelector, entries, DefaultIndex(), prefix) == [(0, entries[0])]
  {
    forall i | 0 <= i < |entries|
      ensures IsMatch(DefaultSelector, i, entries[i], DefaultIndex(), prefix) <==> i == 0
    {
      SelectDefault(entries, DefaultIndex(), prefix, i);
    }
    SingleMatch(DefaultSelector, entries, DefaultIndex(), prefix, 0);
  }

  /** `TITLE=t` selects the entries whose title is `t`, and otherwise only an
      entry whose prefixed kernel path is literally `TITLE=t`. */
  lemma SelectTitle(entries: seq<Entry>, default: nat, prefix: string, t: string, i: nat)
    requires i < |entries|
    ensures Selected(Select(TitleTag + t, entries, default, prefix), i) <==>
              entries[i].title == t || prefix + entries[i].linux == TitleTag + t
  {
    var sel := TitleTag + t;
    var digits := NatToString(i);
    assert sel[0] == 'T';
    assert digits[0] != sel[0];
    assert |sel| >= 6 && sel[..6] == TitleTag;
    if sel == TitleTag + entries[i].title {
      assert t == sel[6..] == entries[i].title;
    }
  }

  /** Under the `/boot` prefix no kernel path can read `TITLE=...`, so
      `TITLE=t` selects exactly the entries titled `t`, never a title that
      merely contains `t` or is contained in it. */
  lemma SelectTitleUnderBoot(entries: seq<Entry>, default: nat, t: string, i: nat)
    requires i < |entries|
    ensures Selected(Select(TitleTag + t, entries, default, MountPrefix.BootMount), i) <==>
              entries[i].title == t
  {
    SelectTitle(entries, default, MountPrefix.BootMount, t, i);
    assert (MountPrefix.BootMount + entries[i].linux)[0] == '/';
    assert (TitleTag + t)[0] == 'T';
  }

  /** A decimal selector selects the entry whose index prints as it, and
      otherwise only an entry whose prefixed kernel path is that decimal
      string. */
  lemma SelectIndex(entries: seq<Entry>, default: nat, prefix: string, j: nat, i: nat)
    requires i < |entries|
    ensures Selected(Select(NatToString(j), entries, default, prefix), i) <==>
              i == j || prefix + entries[i].linux == NatToString(j)
  {
    var sel := NatToString(j);
    assert sel[0] != AllSelector[0] && sel[0] != DefaultSelector[0] && sel[0] != 'T';
    assert (TitleTag + entries[i].title)[0] == 'T';
    if sel == NatToString(i) {
      NatToStringInjective(i, j);
    }
  }

  /** When no prefixed kernel path reads as the decimal string, the decimal
      form selects exactly one entry: the one at that index. */
  lemma SelectIndexUnique(entries: seq<Entry>, default: nat, prefix: string, j: nat)
    requires j < |entries|
    requires forall i :: 0 <= i < |entries| ==> prefix + entries[i].linux != NatToString(j)
    ensures Select(NatToString(j), entries, default, prefix) == [(j, entries[j])]
  {
    forall i | 0 <= i < |entries|
      ensures IsMatch(NatToString(j), i, entries[i], default, prefix) <==> i == j
    {
      SelectIndex(entries, default, prefix, j, i);
    }
    SingleMatch(NatToString(j), entries, default, prefix, j);
  }

  /** Under the `/boot` prefix a path selector `/boot` + `p` selects exactly
      the entries whose stored kernel path is `p`. */
  lemma SelectPathUnderBoot(entries: seq<Entry>, default: nat, p: string, i: nat)
    requires i < |entries|
    ensures Selected(Select(MountPrefix.BootMount + p, entries, default, MountPrefix.BootMount), i) <==>
              entries[i].linux == p
  {
    var sel := MountPrefix.BootMount + p;
    assert sel[0] == '/';
    assert NatToString(i)[0] != '/';
    assert (TitleTag + entries[i].title)[0] == 'T';
    if sel == MountPrefix.BootMount + entries[i].linux {
      assert p == sel[5..] == entries[i].linux;
    }
  }

  /** `get_default_entry` returns the entry the `DEFAULT` selector picks. */
  lemma DefaultEntryIsDefaultSelection(entries: seq<Entry>, prefix: string)
    requires |entries| > 0
    requires forall i :: 0 <= i < |entries| ==> prefix + entries[i].linux != DefaultSelector
    ensures GetDefaultEntry(entries) == Success(Select(DefaultSelector, entries, DefaultIndex(), prefix)[0].1)
  {
    SelectDefaultIsFirst(entries, prefix);
  }
}

=== FILE: text.dfy ===
/** The string operations of Rust's standard library that the program relies
    on, over `seq<char>`: `split(c)`, joining with a separator, `find`,
    `starts_with`, `usize::to_string` and `trim`. */
module Text {
  import opened Results

  /** `s` begins with `p` (Rust `str::starts_with`). */
  predicate StartsWith(s: string, p: string) {
    |p| <= |s| && s[..|p|] == p
  }

  /** `pat` occurs in `s` starting at position `k`. */
  predicate OccursAt(s: string, pat: string, k: nat) {
    k + |pat| <= |s| && s[k..k + |pat|] == pat
  }

  /** The first occurrence of `pat` at or after `from`. */
  function FindFrom(s: string, pat: string, from: nat): (r: Option<nat>)
    requires from <= |s|
    ensures r.Some? ==> from <= r.value && OccursAt(s, pat, r.value)
    ensures r.Some? ==> forall j :: from <= j < r.value ==> !OccursAt(s, pat, j)
    ensures r.None? ==> forall j :: from <= j ==> !OccursAt(s, pat, j)
    decreases |s| - from
  {
    if OccursAt(s, pat, from) then Some(from)
    else if from == |s| then None
    else FindFrom(s, pat, from + 1)
  }

  /** Rust `str::find`: the position of the first occurrence of `pat` in `s`. */
  function Find(s: string, pat: string): (r: Option<nat>)
    ensures r.Some? ==> OccursAt(s, pat, r.value)
    ensures r.Some? ==> forall j :: 0 <= j < r.value ==> !OccursAt(s, pat, j)
    ensures r.None? ==> forall j :: 0 <= j ==> !OccursAt(s, pat, j)
  {
    FindFrom(s, pat, 0)
  }

  /** A string that starts with `pat` has its first occurrence of `pat` at 0. */
  lemma FindAtStart(s: string, pat: string)
    requires StartsWith(s, pat)
    ensures Find(s, pat) == Some(0)
  {
    assert OccursAt(s, pat, 0);
  }

  /** Rust `str::split(c)` with a one-character pattern: the maximal pieces
      between separators, always at least one (`""` splits into `[""]`). */
  function Split(s: string, sep: char): (r: seq<string>)
    ensures |r| >= 1
    ensures forall k :: 0 <= k < |r| ==> sep !in r[k]
    decreases |s|
  {
    if |s| == 0 then [""]
    else
      var rest := Split(s[1..], sep);
      if s[0] == sep then [""] + rest
      else [[s[0]] + rest[0]] + rest[1..]
  }

  /** The pieces in order with `sep` between consecutive ones. */
  function Join(parts: seq<string>, sep: string): string
  {
    if |parts| == 0 then ""
    else if |parts| == 1 then parts[0]
    else parts[0] + sep + Join(parts[1..], sep)
  }

  /** Joining the pieces of a split with the separator restores the string. */
  lemma {:induction false} JoinSplit(s: string, sep: char)
    ensures Join(Split(s, sep), [sep]) == s
    decreases |s|
  {
    if |s| == 0 {
    } else {
      var rest := Split(s[1..], sep);
      JoinSplit(s[1..], sep);
      if s[0] == sep {
        assert ([""] + rest)[1..] == rest;
        assert Join([""] + rest, [sep]) == [sep] + Join(rest, [sep]);
        assert s == [s[0]] + s[1..];
      } else {
        var parts := [[s[0]] + rest[0]] + rest[1..];
        assert parts[1..] == rest[1..];
        if |rest| == 1 {
          assert Join(parts, [sep]) == [s[0]] + rest[0];
        } else {
          assert Join(rest, [sep]) == rest[0] + [sep] + Join(rest[1..], [sep]);
          assert Join(parts, [sep]) == [s[0]] + rest[0] + [sep] + Join(rest[1..], [sep]);
        }
        assert s == [s[0]] + s[1..];
      }
    }
  }

  /** A string without the separator splits into itself alone. */
  lemma {:induction false} SplitWithoutSeparator(s: string, sep: char)
    requires sep !in s
    ensures Split(s, sep) == [s]
    decreases |s|
  {
    if |s| > 0 {
      SplitWithoutSeparator(s[1..], sep);
      assert s == [s[0]] + s[1..];
    }
  }

  /** Splitting at a separator between `x` and `y` splits each side apart. */
  lemma {:induction false} SplitAppend(x: string, sep: char, y: string)
    ensures Split(x + [sep] + y, sep) == Split(x, sep) + Split(y, sep)
    decreases |x|
  {
    var s := x + [sep] + y;
    if |x| == 0 {
      assert s[1..] == y;
    } else {
      assert s[1..] == x[1..] + [sep] + y;
      SplitAppend(x[1..], sep, y);
      var a := Split(x[1..], sep);
      if x[0] == sep {
      } else {
        var r := Split(s[1..], sep);
        assert r == a + Split(y, sep);
        assert r[0] == a[0];
        assert r[1..] == a[1..] + Split(y, sep);
      }
    }
  }

  /** Splitting the join of separator-free pieces gives the pieces back. */
  lemma {:induction false} SplitJoin(parts: seq<string>, sep: char)
    requires |parts| >= 1
    requires forall k :: 0 <= k < |parts| ==> sep !in parts[k]
    ensures Split(Join(parts, [sep]), sep) == parts
    decreases |parts|
  {
    SplitWithoutSeparator(parts[0], sep);
    if |parts| > 1 {
      SplitJoin(parts[1..], sep);
      SplitAppend(parts[0], sep, Join(parts[1..], [sep]));
      assert parts == [parts[0]] + parts[1..];
    }
  }

  /** The character of a decimal digit. */
  function DigitChar(d: nat): (c: char)
    requires d < 10
    ensures '0' <= c <= '9'
    ensures c as int - '0' as int == d
  {
    (('0' as int) + d) as char
  }

  /** The string consists of decimal digits only. */
  predicate AllDigits(s: string) {
    forall k :: 0 <= k < |s| ==> '0' <= s[k] <= '9'
  }

  /** The number a string of decimal digits denotes, most significant digit
      first; the reference reading of a decimal rendering. */
  function DecimalValue(s: string): nat
    requires AllDigits(s)
  {
    if |s| == 0 then 0
    else 10 * DecimalValue(s[..|s| - 1]) + (s[|s| - 1] as int - '0' as int)
  }

  /** Rust `usize::to_string`: the decimal digits of `n` without leading zeros. */
  function NatToString(n: nat): (r: string)
    ensures |r| >= 1 && AllDigits(r)
    ensures DecimalValue(r) == n
    ensures |r| > 1 ==> r[0] != '0'
    decreases n
  {
    if n < 10 then [DigitChar(n)]
    else
      var high := NatToString(n / 10);
      var r := high + [DigitChar(n % 10)];
      assert r[..|r| - 1] == high;
      assert r[0] == high[0];
      r
  }

  /** Different numbers print differently, so a decimal string names at most
      one number. */
  lemma NatToStringInjective(a: nat, b: nat)
    requires NatToString(a) == NatToString(b)
    ensures a == b
  {
    assert a == DecimalValue(NatToString(a));
  }

  /** Rust `char::is_whitespace`: the Unicode White_Space property. */
  predicate IsWhitespace(c: char) {
    || ('\t' <= c <= '\r')
    || c == ' '
    || c == '\U{85}'
    || c == '\U{A0}'
    || c == '\U{1680}'
    || ('\U{2000}' <= c <= '\U{200A}')
    || c == '\U{2028}'
    || c == '\U{2029}'
    || c == '\U{202F}'
    || c == '\U{205F}'
    || c == '\U{3000}'
  }

  /** The first position at or after `lo` holding a non-whitespace character,
      or `|s|` when there is none. */
  function SkipWhitespace(s: string, lo: nat): (i: nat)
    requires lo <= |s|
    ensures lo <= i <= |s|
    ensures forall k :: lo <= k < i ==> IsWhitespace(s[k])
    ensures i < |s| ==> !IsWhitespace(s[i])
    decreases |s| - lo
  {
    if lo == |s| || !IsWhitespace(s[lo]) then lo
    else SkipWhitespace(s, lo + 1)
  }

  /** The end of `s[lo..hi]` once trailing whitespace is dropped. */
  function TrimEnd(s: string, lo: nat, hi: nat): (j: nat)
    requires lo <= hi <= |s|
    ensures lo <= j <= hi
    ensures forall k :: j <= k < hi ==> IsWhitespace(s[k])
    ensures lo < j ==> !IsWhitespace(s[j - 1])
    decreases hi
  {
    if hi == lo || !IsWhitespace(s[hi - 1]) then hi
    else TrimEnd(s, lo, hi - 1)
  }

  /** Rust `str::trim`: `s` without leading and trailing whitespace. The
      result is a contiguous piece of `s`, everything cut away is whitespace,
      and the result neither begins nor ends with whitespace. */
  function Trim(s: string): (r: string)
    ensures exists lo: nat, hi: nat ::
              && lo <= hi <= |s| && r == s[lo..hi]
              && (forall k :: 0 <= k < lo ==> IsWhitespace(s[k]))
              && (forall k :: hi <= k < |s| ==> IsWhitespace(s[k]))
    ensures |r| > 0 ==> !IsWhitespace(r[0]) && !IsWhitespace(r[|r| - 1])
  {
    var lo := SkipWhitespace(s, 0);
    var hi := TrimEnd(s, lo, |s|);
    assert lo < hi ==> s[lo..hi][0] == s[lo];
    s[lo..hi]
  }

  /** Trimming drops a trailing newline. */
  lemma TrimNewline(s: string)
    requires |s| > 0 && !IsWhitespace(s[0]) && !IsWhitespace(s[|s| - 1])
    ensures Trim(s + "\n") == s
  {
    var t := s + "\n";
    assert SkipWhitespace(t, 0) == 0;
    assert TrimEnd(t, 0, |t|) == TrimEnd(t, 0, |s|) == |s|;
    assert t[..|s|] == s;
  }
}

=== FILE: update.dfy ===
/** `update_bls_entries` and `handle_update_kernel`: for every selected entry
    the command-line editor is asked first to remove arguments and then to set
    arguments. The editor itself belongs to the record-store library; the model
    records the calls it receives. */
module Update {
  import opened Results
  import opened Text
  import opened Bls
  import MountPrefix
  import Selection

  /** The enumeration indices of a selection. */
  function IndexSet(selected: seq<(nat, Entry)>): set<nat> {
    set k | 0 <= k < |selected| :: selected[k].0
  }

  /** The calls `update_bls_entries` makes, in order: for each selected entry,
      the removal of the `--remove-args` tokens, then the setting of the
      `--args` tokens, both split on single spaces. No entry outside the
      selection is edited. */
  function UpdateEntries(selected: seq<(nat, Entry)>, removeArgs: string, args: string)
    : (r: seq<UpdateEvent>)
    ensures IsUpdateTrace(r, selected, removeArgs, args)
    ensures forall p :: 0 <= p < |r| ==> r[p].index in IndexSet(selected)
  {
    if |selected| == 0 then []
    else
      var rest := UpdateEntries(selected[1..], removeArgs, args);
      UpdateStep(rest, selected, removeArgs, args);
      [CmdlineRemove(selected[0].0, Split(removeArgs, ' ')),
       CmdlineSet(selected[0].0, Split(args, ' '))] + rest
  }

  /** `r` holds, for each selected entry in order, the removal call and then
      the setting call. */
  predicate IsUpdateTrace(r: seq<UpdateEvent>, selected: seq<(nat, Entry)>, removeArgs: string, args: string) {
    && |r| == 2 * |selected|
    && forall k :: 0 <= k < |selected| ==>
         && r[2 * k] == CmdlineRemove(selected[k].0, Split(removeArgs, ' '))
         && r[2 * k + 1] == CmdlineSet(selected[k].0, Split(args, ' '))
  }

  /** One step of `UpdateEntries`: the two calls for the first entry in front
      of the trace of the rest are the trace of the whole selection, and touch
      only selected indices. */
  lemma UpdateStep(rest: seq<UpdateEvent>, selected: seq<(nat, Entry)>, removeArgs: string, args: string)
    requires |selected| > 0
    requires IsUpdateTrace(rest, selected[1..], removeArgs, args)
    requires forall p :: 0 <= p < |rest| ==> rest[p].index in IndexSet(selected[1..])
    ensures var r := [CmdlineRemove(selected[0].0, Split(removeArgs, ' ')),
                      CmdlineSet(selected[0].0, Split(args, ' '))] + rest;
            && IsUpdateTrace(r, selected, removeArgs, args)
            && forall p :: 0 <= p < |r| ==> r[p].index in IndexSet(selected)
  {
    var r := [CmdlineRemove(selected[0].0, Split(removeArgs, ' ')),
              CmdlineSet(selected[0].0, Split(args, ' '))] + rest;
    forall k | 1 <= k < |selected|
      ensures r[2 * k] == CmdlineRemove(selected[k].0, Split(removeArgs, ' '))
      ensures r[2 * k + 1] == CmdlineSet(selected[k].0, Split(args, ' '))
    {
      assert selected[1..][k - 1] == selected[k];
      assert r[2 * k] == rest[2 * (k - 1)];
      assert r[2 * k + 1] == rest[2 * (k - 1) + 1];
    }
    forall p | 0 <= p < |r|
      ensures r[p].index in IndexSet(selected)
    {
      if p < 2 {
        assert r[p].index == selected[0].0;
      } else {
        assert r[p] == rest[p - 2];
        var j :| 0 <= j < |selected[1..]| && selected[1..][j].0 == r[p].index;
        assert selected[j + 1].0 == r[p].index;
      }
    }
  }

  /** `handle_update_kernel`: at least one of `--args` and `--remove-args` is
      required; a missing one counts as the empty string. */
  function HandleUpdateKernel(m: Matches, sys: System): (r: Result<seq<UpdateEvent>, Error>)
    requires m.updateKernel.Some?
    ensures m.args.None? && m.removeArgs.None? ==> r == Failure(ArgsMissing)
    ensures (m.args.Some? || m.removeArgs.Some?) && sys.mountInfo.None? ==> r == Failure(MountInfoUnreadable)
    ensures (m.args.Some? || m.removeArgs.Some?) && MountPrefix.GetPrefix(sys.mountInfo).Failure? ==>
              r == Failure(MountPrefix.GetPrefix(sys.mountInfo).error)
    ensures (m.args.Some? || m.removeArgs.Some?) && MountPrefix.GetPrefix(sys.mountInfo).Success? ==>
              r == Success(UpdateEntries(
                     Selection.Select(m.updateKernel.value, sys.entries, Selection.DefaultIndex(),
                                      MountPrefix.GetPrefix(sys.mountInfo).value),
                     m.removeArgs.Otherwise(""), m.args.Otherwise("")))
  {
    if m.args.None? && m.removeArgs.None? then Failure(ArgsMissing)
    else
      var selected :- Selection.GetBlsList(m.updateKernel.value, sys);
      Success(UpdateEntries(selected, m.removeArgs.Otherwise(""), m.args.Otherwise("")))
  }
}
